=== FILE: README.md ===
# CrisisCompass decision logic in Dafny

CrisisCompass is a Next.js disaster-awareness application. Its request handlers and its map page carry a few pieces of deterministic decision logic around their remote calls. This project models them as pure functions over explicit JavaScript values and proves what they promise. The remote answers are inputs to those functions. These are the pieces:

- **Facility search** (hospital, shelter, food and transportation routes). One adaptive-radius do-while loop is shared by all four routes. It queries the places provider and doubles the radius after every empty answer. It stops at 10 queries, or once the doubled radius reaches 50000 m. It answers 500 on a failed query, 404 with the kilometres reached, or 200 with the features (`radius_search.dfy`).
- **NASA feed route.** It normalises the EONET events into flat records, "sorts" them, keeps ten and merges in the reverse-geocoded place names (`nasa_feed.dfy`).
- **Check-disaster page.** It reads the store's latest record and the feed, keeps the feed records dated strictly later, and sends them to the insert route (`check_disaster.dfy`).
- **Insert route.** It formats each record into the store's columns with "Unknown" defaults and sends one PUT per record (`insert_disaster.dfy`).
- **FEMA route.** It looks up the FIPS codes, derives the county code, queries FEMA and keeps the declarations dated on or after a cutoff (`fema.dfy`).
- **Resilience-zones route.** It strips the Markdown fence around the language model's reply (`resilience_zones.dfy`).
- **Disasters map page.** It picks the marker icon from the incident type and the selected location's icon from its latest declaration. It also sets the colour of the user's circle and decides which declarations are geocoded (`disaster_page.dfy`).

Shared modules model the JavaScript semantics these pieces rely on:

- `results.dfy` covers throwing, as a `Completion`.
- `jsvalues.dfy` covers values, truthiness, property access, `ToString`, spread and `new Date(v)`.
- `numbers.dfy` covers `parseInt` and decimal text.
- `strings.dfy` covers `trim`, `replace`, `replaceAll`, `includes`, `toLowerCase` and `join`.
- `seqs.dfy` covers `filter`, with and without a throwing callback, and `slice`.
- `sorting.dfy` covers `sort` with a comparator, as a stable insertion sort.

Remote services, the clock and the host's date parser are parameters:

- a places provider `Query -> Reply`;
- `fema: Query -> FemaReply`;
- `reverse(lat, lon)`;
- `parse: string -> Option<int>`;
- `iso: int -> string`;
- a six-month `cutoff`.

Behaviour of the code that is easy to miss:

- An event with an unreadable date does not just get dropped. `toISOString` throws, and the whole feed route answers 500 (`NasaFeed.InvalidDateThrows`).
- A start radius at or above 50000 m is still queried once (`RadiusSearch.WideStartQueriesOnce`).
- The 404 reports the radius after its last doubling, not the radius searched.
- The insert route never looks at the store's answers, so a write the store refuses does not stop the loop. Only a throw does: a null record, or a PUT whose `fetch` rejects.
- The map page's geocoding callbacks are `async`, so a null declaration does not stop the others from being geocoded (`DisasterPage.AreaQueries`).

## Model

| member | source | states |
|---|---|---|
| RadiusSearch.Loop | app/api/hospital/route.js:17-34 | the do-while loop makes 1 to 10 queries, the first at the start radius. The last answer is the one for the last radius. After a success the final radius is twice the last one. An empty last answer means the doubled radius reached 50000 or the run cap was hit |
| RadiusSearch.LoopSearchesOutward | app/api/hospital/route.js:32-34 | each query's radius is exactly double the previous one and stays below 50000, and another query follows only an empty answer |
| RadiusSearch.QueryFor | app/api/hospital/route.js:23 | the query carries the route's categories and limit and the current radius; a missing coordinate is written "null" |
| RadiusSearch.RequestedRadius | app/api/hospital/route.js:13 | a missing parameter reads as NaN; a present one as `parseInt` of its text |
| RadiusSearch.StartRadius | app/api/hospital/route.js:13 | the start radius is the default or the parsed value, and it is 0 only when the default is |
| RadiusSearch.StartRadiusDefaults | app/api/hospital/route.js:13 | a missing, zero or non-numeric radius parameter falls back to the route's default |
| RadiusSearch.DecimalRadiusUsed | app/api/transportation/route.js:13 | a positive decimal radius parameter is used as written |
| RadiusSearch.MissingRadiusIsNaN | app/api/social-services/food/route.js:13 | `parseInt(null)` is NaN |
| RadiusSearch.Respond | app/api/hospital/route.js:24-45 | 500 with the provider's text exactly when the last answer failed; 200 with the features unchanged exactly when they are non-empty; otherwise 404 with `floor(finalRadius / 1000)` km |
| RadiusSearch.Collection | app/api/hospital/route.js:31-45 | the provider's parsed collection holds the feature array under `features` and keeps all its other entries |
| RadiusSearch.Status | app/api/hospital/route.js:28 | the status is 500, 404 or 200, and 200 only for found features |
| RadiusSearch.Body | app/api/hospital/route.js:26-45 | the JSON body of each outcome: error and details for a 500, a message for a 404, and for a 200 the provider's parsed collection unchanged, its `features` and every other entry |
| RadiusSearch.Handle | app/api/hospital/route.js:8-46 | the route's queries run from the start radius, at most 10 of them; its outcome follows the last answer; a 404 reports twice the last radius, reached at the ceiling or the run cap |
| RadiusSearch.HandleSearchesOutward | app/api/social-services/shelter/route.js:19-34 | the route's radii double from query to query below 50000, and every answer before the last was empty |
| RadiusSearch.HandleFollows | app/api/social-services/shelter/route.js:34-45 | the route follows a doubling chain until the first answer that stops the loop. If the k-th answer is the first non-empty one, exactly k queries are made and it is returned with 200. A failed answer gives 500 with no further query |
| RadiusSearch.LoopFollows | app/api/hospital/route.js:19-34 | a doubling chain of empty answers ending in a stopping answer is exactly the list of radii the loop queries |
| RadiusSearch.LoopStops | app/api/hospital/route.js:24-34 | a failed, non-empty, ceiling or run-capped answer ends the loop after that query |
| RadiusSearch.LoopContinues | app/api/hospital/route.js:32-34 | an empty answer below the ceiling and the cap sends the next query at twice the radius |
| RadiusSearch.RadiiFromStart | app/api/hospital/route.js:32 | the k-th radius of a doubling chain is the start times 2^k |
| RadiusSearch.DefaultSearchFindsNothing | app/api/hospital/route.js:13-43 | with the 5000 m default and nothing found: queries at 5000, 10000, 20000 and 40000 m, then 404 with 80 km |
| RadiusSearch.TransportSearchFindsNothing | app/api/transportation/route.js:13-43 | with the 1000 m default and nothing found: six queries, 1000 to 32000 m, then 404 with 64 km |
| RadiusSearch.RunCapEndsTinySearch | app/api/transportation/route.js:20-40 | with radius 1 and nothing found: ten queries, 1 to 512 m, the run cap ends the loop, and the 404 says 1 km |
| RadiusSearch.WideStartQueriesOnce | app/api/social-services/food/route.js:19-34 | a start whose double reaches 50000 is queried exactly once |
| NasaFeed.Normalize | app/api/nasa/get-disaster/route.js:38-51 | an event is null exactly when its first geometry lacks coordinates or a date, and otherwise a record; a null event throws |
| NasaFeed.NormalizeFields | app/api/nasa/get-disaster/route.js:43-49 | a record's name is the title, its type the joined category titles, its LATITUDE `coordinates[1]`, its LONGITUDE `coordinates[0]` and its DATE_TIME the ISO text of the date |
| NasaFeed.InvalidDateThrows | app/api/nasa/get-disaster/route.js:49 | a located event whose date is an Invalid Date makes `toISOString` throw a RangeError |
| NasaFeed.Destructure2 | app/api/nasa/get-disaster/route.js:43 | destructuring reads the first two elements of an array or string and throws on anything else |
| NasaFeed.CategoryTitles | app/api/nasa/get-disaster/route.js:46 | joining the category titles throws exactly when `categories` is not an array or holds a null entry |
| NasaFeed.FirstGeometry | app/api/nasa/get-disaster/route.js:39 | `event.geometry[0]` throws exactly for a null event or a null geometry list |
| NasaFeed.MapGet | app/api/nasa/get-disaster/route.js:46 | `map(cat => cat.title)` throws exactly at a null element, otherwise yields each element's property |
| NasaFeed.NormalizeAll | app/api/nasa/get-disaster/route.js:37-51 | `events.map(...)` throws exactly when some event does, otherwise yields one result per event |
| NasaFeed.Records | app/api/nasa/get-disaster/route.js:36-52 | the records throw exactly when `events` is not an array or some event throws |
| NasaFeed.RecordsOfLocatedEvents | app/api/nasa/get-disaster/route.js:52 | the kept records are in feed order, one per event that was not null |
| NasaFeed.RecordOrigin | app/api/nasa/get-disaster/route.js:37-52 | every record is the normalisation of some event of the feed |
| NasaFeed.RecordIssuesTime | app/api/nasa/get-disaster/route.js:49 | every record is keyed by the five record fields and carries an ISO date |
| NasaFeed.ByDate | app/api/nasa/get-disaster/route.js:53 | sorting permutes the records |
| NasaFeed.WrittenSortKeepsFeedOrder | app/api/nasa/get-disaster/route.js:53 | the comparator reading `dateTime` leaves the records in feed order |
| NasaFeed.IntendedSortIsDescending | app/api/nasa/get-disaster/route.js:34-35 | a comparator reading DATE_TIME orders records latest first, on a host whose parser reads back what `toISOString` writes for every time value within ±8.64e15 ms |
| NasaFeed.LocationDetails | app/api/nasa/get-disaster/route.js:57-73 | the place names are `{}` exactly when the lookup failed, the reply is null or it has no address; otherwise all four keys are present |
| NasaFeed.LocationFallbacks | app/api/nasa/get-disaster/route.js:64-69 | each place name is the address's truthy entry or null, and city falls back to town, then village |
| NasaFeed.Merge | app/api/nasa/get-disaster/route.js:19 | the merged object has the keys of both |
| NasaFeed.MergeKeepsRecord | app/api/nasa/get-disaster/route.js:19 | the place names never overwrite a record field, and every place name is present |
| NasaFeed.Detailed | app/api/nasa/get-disaster/route.js:17-22 | one merged item per record, in order, each with the place names of its own point |
| NasaFeed.GetDisasters | app/api/nasa/get-disaster/route.js:1-31 | 500 with "Internal Server Error" when the feed fails and with the fetch message when `events` is missing. It answers 200 exactly when the events normalise without a throw. When the feed has events but one of them throws while being normalised, the answer is the same 500 with "Internal Server Error". A 200 answers at most 10 items, with one lookup each |
| NasaFeed.RouteAnswer | app/api/nasa/get-disaster/route.js:12-26 | a 200 answers min(10, number of records) items. The i-th item is an object with the i-th sorted record's five fields; its only other entries are the place names found for that record's point. The i-th lookup is that point |
| NasaFeed.WrittenRouteKeepsFeedOrder | app/api/nasa/get-disaster/route.js:12 | as written the route answers the first ten located events in feed order |
| NasaFeed.IntendedRouteIsLatestFirst | app/api/nasa/get-disaster/route.js:11-12 | with the comparator reading DATE_TIME, on a host whose parser reads back every in-range ISO time, the route answers the latest 10: min(10, number of records) items, latest first, built from distinct records of the feed. Every record left out is dated no later than every answered item |
| NasaFeed.DetailedAreItems | app/api/nasa/get-disaster/route.js:17-19 | every answered item is a record's five fields plus, at most, the four place names, and dropping the place names gives back the record |
| NasaFeed.DetailedKeepsRecords | app/api/nasa/get-disaster/route.js:19 | every answered item keeps its record's fields |
| NasaFeed.ErrorReply | app/api/nasa/get-disaster/route.js:8 | an error answer is a 500 sent before any lookup |
| CheckDisaster.Watermark | app/check-disaster/page.js:23 | the latest stored record is `items[0]`, or undefined when the body, `items` or the list is missing or empty |
| CheckDisaster.IsNewer | app/check-disaster/page.js:34-38 | the callback throws exactly for a null record against a watermark, otherwise tells whether the record is newer |
| CheckDisaster.FilterNewer | app/check-disaster/page.js:34-39 | the filter throws exactly when a watermark exists and some record is null, and otherwise keeps exactly the newer records |
| CheckDisaster.Sync | app/check-disaster/page.js:8-63 | the requests run store, feed, insert, in that order. It aborts with the store message exactly when the store answers not ok, after one request. It aborts with the NASA message exactly when an ok store is followed by a feed that answers not ok, before any insert. A rejected store or feed request is a host failure at that point. "No new disasters" sends no insert, and an insert batch is never empty. A feed body that is not an array is a host failure, and so is a null feed record once the store has a latest record. A rejected insert is a host failure, and an answered insert makes its body the result |
| CheckDisaster.SyncSendsNewer | app/check-disaster/page.js:34-53 | the batch sent is the newer records as a sub-list of the feed in feed order; none newer means no insert |
| CheckDisaster.NoWatermarkKeepsAll | app/check-disaster/page.js:36 | with no stored record every fetched record is kept |
| CheckDisaster.EmptyStoreHasNoWatermark | app/check-disaster/page.js:23 | a store body with no or empty `items` has no watermark |
| CheckDisaster.KeptExactlyWhenLater | app/check-disaster/page.js:37 | against a watermark a record is kept exactly when both dates are valid and its date is strictly later; a missing date is dropped |
| CheckDisaster.WrittenSyncInsertsNothing | app/check-disaster/page.js:37 | as written, once the store has a record, a feed of readable items without `date_time` inserts nothing and reports "No new disasters". The NASA route's items are such a feed (`RouteItemsLackWrittenDate`) |
| CheckDisaster.IntendedSyncInsertsLater | app/check-disaster/page.js:33-39 | reading DATE_TIME, any readable feed item dated later than the stored record is in the inserted batch |
| CheckDisaster.RouteItemsLackWrittenDate | app/api/nasa/get-disaster/route.js:44-50 | every item the NASA route answers is an object with no `date_time` entry, whose `DATE_TIME` is its own entry |
| InsertDisaster.OrUnknown | app/api/oracle/insert-disaster/route.js:11 | a truthy value is kept, a falsy one becomes "Unknown" |
| InsertDisaster.TextOrUnknown | app/api/oracle/insert-disaster/route.js:13 | the result is a non-empty string: "Unknown" for null or undefined, otherwise the value's text unless that is empty |
| InsertDisaster.Format | app/api/oracle/insert-disaster/route.js:10-19 | formatting throws exactly for a null record and otherwise yields exactly the eight columns |
| InsertDisaster.ValueColumnsDefault | app/api/oracle/insert-disaster/route.js:11-18 | name, type, county, state and country keep a truthy value or write "Unknown"; COUNTY, STATE and COUNTRY read `county`, `state` and `country` |
| InsertDisaster.TextColumnsAsText | app/api/oracle/insert-disaster/route.js:13-15 | LATITUDE, LONGITUDE and DATE_TIME are the value's text, and "Unknown" only when null, undefined or empty text |
| InsertDisaster.ZeroCoordinateKept | app/api/oracle/insert-disaster/route.js:13 | a coordinate of 0 is written "0" |
| InsertDisaster.Process | app/api/oracle/insert-disaster/route.js:9-29 | the loop sends at most one PUT per record, in order, each for a non-null record, and reaches the end unless it fails |
| InsertDisaster.ProcessFailsOnUnsendable | app/api/oracle/insert-disaster/route.js:9-29 | the loop fails exactly when some record is null or its PUT rejects |
| InsertDisaster.ProcessStopsAt | app/api/oracle/insert-disaster/route.js:9-29 | the loop ends at the first record that cannot be sent: before it when it is null, after it when its PUT rejects |
| InsertDisaster.Put | app/api/oracle/insert-disaster/route.js:1-38 | 400 for a non-array body with no PUT, 500 when the body is not JSON. For an array, 200 "Disasters processed" exactly when the loop does not fail, and 500 otherwise. The PUTs sent are the formatted prefix the loop reached |
| InsertDisaster.OnePutPerRecord | app/api/oracle/insert-disaster/route.js:9-33 | with no null record and every PUT settling, exactly one PUT per record is sent, in order, and the answer is 200 |
| InsertDisaster.NullRecordStopsAfterEarlierPuts | app/api/oracle/insert-disaster/route.js:34-37 | a null record gives 500 after the PUTs of every earlier record were sent |
| InsertDisaster.RejectedPutStopsAfterIt | app/api/oracle/insert-disaster/route.js:22-36 | a rejected PUT gives 500 after the PUTs of that record and every earlier one; no later record is sent |
| Fema.Fips | app/api/fema/route.js:28-29 | `locationDetails?.State?.FIPS` and `locationDetails?.County?.FIPS` are undefined when the details or the level are missing, and the level's `FIPS` entry otherwise |
| Fema.CountyCode | app/api/fema/route.js:39 | `substring(2)` throws exactly for a non-string and otherwise drops the first two characters, the rest unchanged |
| Fema.CountyCodeOfFiveDigits | app/api/fema/route.js:38-39 | a five-character county FIPS gives its last three characters |
| Fema.IsRecent | app/api/fema/route.js:71 | the window test throws exactly for a null declaration, otherwise tells whether its date is on or after the cutoff |
| Fema.Narrow | app/api/fema/route.js:69-73 | a falsy summaries entry leaves the body as it was. A truthy one is replaced by the declarations dated on or after the cutoff. Narrowing throws exactly for a null body, a non-array summaries entry or a null declaration |
| Fema.Handle | app/api/fema/route.js:8-76 | a failed FCC request gives 500 before FEMA is asked. FEMA is asked exactly when both FIPS codes are truthy and the county one is a string, with the state code and the derived county code. An FCC body that is not JSON, or a truthy county FIPS that is not a string, throws before FEMA is asked. Once the query is sent, the route answers exactly what `Respond` gives for FEMA's reply: 500 for a failed request, and otherwise 200 with FEMA's body narrowed to the recent declarations. A 200 needs a FEMA body whose narrowing succeeds |
| Fema.Respond | app/api/fema/route.js:46-75 | 500 with FEMA's text on failure, 500 "Invalid JSON" with the re-read text when the body is not JSON, and 200 exactly when the narrowing succeeds, with the narrowed body spread |
| Fema.NoFipsNoQuery | app/api/fema/route.js:31-36 | a missing state or county FIPS gives 500 with the location details and no FEMA query |
| Fema.QueryUsesCountyCode | app/api/fema/route.js:39-42 | with string FIPS codes the query names the state code and the county code without its first two characters |
| Fema.NoSummariesUnchanged | app/api/fema/route.js:69-75 | a body without declarations is answered unchanged with 200 |
| Fema.RecentDeclarationsKept | app/api/fema/route.js:69-75 | the answer holds exactly the declarations dated on or after the cutoff, as a sub-list in original order |
| Fema.WindowIsExact | app/api/fema/route.js:70-72 | a declaration dated on or after the cutoff is kept, and every kept one is so dated |
| Fema.NullDeclarationThrows | app/api/fema/route.js:70-72 | a null declaration makes the route throw |
| ResilienceZones.Clean | app/api/fema/resilience-zones/route.js:14 | the cleaned reply is a slice of the reply after both removals, with no whitespace at either end |
| ResilienceZones.LaterTagKept | app/api/fema/resilience-zones/route.js:14 | only the first `json` is removed; a later one survives |
| ResilienceZones.CleanLeavesNoFence | app/api/fema/resilience-zones/route.js:14 | no run of three backticks survives cleaning |
| ResilienceZones.RemoveAllLeavesNoFence | app/api/fema/resilience-zones/route.js:14 | `replaceAll('```', '')` leaves no run of three backticks |
| ResilienceZones.RemoveTicks | app/api/fema/resilience-zones/route.js:14 | a run of n backticks is cut down to n mod 3 |
| ResilienceZones.FencedTagFirst | app/api/fema/resilience-zones/route.js:14 | in a fenced reply the first `json` is the fence's tag |
| ResilienceZones.ClosingFenceRemoved | app/api/fema/resilience-zones/route.js:14 | the closing fence goes and the body stays |
| ResilienceZones.FencedReplyCleansToBody | app/api/fema/resilience-zones/route.js:14 | "```json\n" + body + "\n```" cleans to the trimmed body |
| DisasterPage.Classify | component/disasterPage.jsx:81-117 | fire exactly when the type contains "fire"; flood exactly when it lacks "fire" and contains "flood"; storm exactly when it lacks both and contains "storm"; otherwise default |
| DisasterPage.LoweredType | component/disasterPage.jsx:80 | the type throws exactly for a null declaration or a non-string incident type, is "" when it is missing and its lower-case form otherwise |
| DisasterPage.IconFor | component/disasterPage.jsx:79-118 | the icon throws exactly when reading the type does and is the classification of the lower-cased type |
| DisasterPage.FireWins | component/disasterPage.jsx:80-89 | an incident type containing "fire" in any letter case gets the fire icon, whatever else it contains |
| DisasterPage.MissingTypeIsDefault | component/disasterPage.jsx:80 | a missing incident type gets the default marker |
| DisasterPage.IconIgnoresCase | component/disasterPage.jsx:80 | a type and its lower-case form get the same icon |
| DisasterPage.SelectedIcon | component/disasterPage.jsx:247-254 | no selected declarations give the default marker |
| DisasterPage.SelectedIconThrows | component/disasterPage.jsx:241-245 | a null declaration, or nothing but undefined ones, makes the icon throw |
| DisasterPage.SelectedIconIsLatest | component/disasterPage.jsx:239-246 | with valid dates the icon is that of the first declaration with the latest date |
| DisasterPage.CircleColour | component/disasterPage.jsx:231-235 | the circle is red exactly when the user's declaration list is non-empty |
| DisasterPage.AreaQuery | component/disasterPage.jsx:207-208 | the area throws exactly for a null declaration and is never falsy when present; a truthy title is preferred |
| DisasterPage.AreaFallback | component/disasterPage.jsx:207-208 | without a title the area is the designated area, and with neither nothing is geocoded |
| DisasterPage.AreaQueries | component/disasterPage.jsx:200-217 | `Promise.all` rejects exactly when some declaration is null, and the other declarations are still geocoded; there is at most one query per declaration, and every query is truthy |
| DisasterPage.QueriesPerGeocoded | component/disasterPage.jsx:205-208 | the queries are, in list order, the title-or-area of each non-null declaration that has one, null declarations skipped |
| Numbers.NatToString | app/api/hospital/route.js:40 | the decimal text is non-empty digits without a leading zero that read back as the number |
| Numbers.NatToStringInjective | app/api/hospital/route.js:40 | distinct numbers have distinct texts |
| Numbers.IntToString | app/api/hospital/route.js:40 | a negative number is "-" and the text of its magnitude |
| Numbers.DigitRun | app/api/hospital/route.js:13 | the run is the longest digit prefix |
| Numbers.ParseInt | app/api/hospital/route.js:13 | `parseInt` is NaN unless a decimal digit follows the leading whitespace and sign; it is a number whenever one does and no `0x` prefix follows; it is negative only after a leading "-" and never negative without one |
| Numbers.ParseIntOfNatToString | app/api/hospital/route.js:13 | `parseInt` reads a number back from its decimal text, also when a non-alphanumeric character follows |
| JsValues.FalsyValues | app/api/oracle/insert-disaster/route.js:11-18 | the falsy values that logical or and not test are exactly undefined, null, false, NaN, either zero and the empty string; a string is truthy exactly when its text is non-empty |
| JsValues.ToString | app/api/oracle/insert-disaster/route.js:13-15 | `toString` of a string is the string, of a number a non-empty text, of an empty array "" and of a one-element array that element's join text |
| JsValues.Get | component/disasterPage.jsx:207 | a property read throws exactly on null or undefined, and a defined result is the object's own entry |
| JsValues.OptGet | app/api/fema/route.js:28-29 | `?.` gives undefined on null or undefined and the property otherwise |
| JsValues.Or | app/api/oracle/insert-disaster/route.js:11 | the logical or of a and b is a when a is truthy, else b |
| JsValues.At | app/api/nasa/get-disaster/route.js:39 | indexing throws exactly on null or undefined; an array gives its element or undefined |
| JsValues.OptAt | app/check-disaster/page.js:23 | `?.[i]` gives undefined on null or undefined and the element otherwise |
| JsValues.Spread | app/api/fema/route.js:75 | spreading an object copies its entries, and a primitive other than a string gives none (a string spreads its characters, as `SpreadIndex` states) |
| JsValues.SpreadIndex | app/api/nasa/get-disaster/route.js:19 | spreading an array or string puts each element under its index's text |
| JsValues.NumberToString | app/api/oracle/insert-disaster/route.js:13-14 | a number's text is non-empty and zero is "0" |
| JsValues.ElementTexts | app/api/nasa/get-disaster/route.js:46 | `join` writes each element's text |
| JsValues.DateValue | app/check-disaster/page.js:37 | `new Date(v)` is Invalid for undefined, 0 for null, and for a string the parsed time clipped to ±8.64e15 ms (TimeClip); every valid result lies in that range |
| JsValues.TimeClip | app/check-disaster/page.js:37 | a time value out of range gives an Invalid Date |
| JsValues.Difference | component/disasterPage.jsx:242 | the difference of two dates is NaN exactly when either is Invalid |
| Strings.TrimStart | app/api/hospital/route.js:13 | leading whitespace is dropped and the rest kept |
| Strings.Trim | app/api/fema/resilience-zones/route.js:14 | `trim` yields a slice of the input with no whitespace at either end |
| Strings.TrimIgnoresPadding | app/api/fema/resilience-zones/route.js:14 | whitespace around a text does not change its trimmed form |
| Strings.IndexOf | app/api/fema/resilience-zones/route.js:14 | the index is the first occurrence, or none when there is none |
| Strings.ContainsMeansOccurs | component/disasterPage.jsx:81 | `includes` holds exactly when the text occurs somewhere |
| Strings.RemoveFirst | app/api/fema/resilience-zones/route.js:14 | `replace` with a string removes its first occurrence only, leaving the input when there is none |
| Strings.RemoveAll | app/api/fema/resilience-zones/route.js:14 | `replaceAll` with the empty string never lengthens the text |
| Strings.RemoveAllDropsOnly | app/api/fema/resilience-zones/route.js:14 | `replaceAll` only drops characters |
| Strings.RemoveAllWithoutOccurrence | app/api/fema/resilience-zones/route.js:14 | with no occurrence `replaceAll` changes nothing |
| Strings.Join | app/api/nasa/get-disaster/route.js:46 | joining nothing is "", joining one part is that part |
| Strings.ToLower | component/disasterPage.jsx:80 | lower-casing maps each character, only A to Z changing |
| Strings.ToLowerIdempotent | component/disasterPage.jsx:80 | lower-casing twice is lower-casing once |
| Seqs.Filter | app/check-disaster/page.js:34-39 | `filter` keeps only passing elements |
| Seqs.FilterOrThrow | app/api/fema/route.js:70-72 | a filter with a throwing callback throws exactly when some element throws, and otherwise keeps the elements whose callback returns true |
| Seqs.FilterCounts | app/check-disaster/page.js:34-39 | each passing element stays as often as it occurs, and no other element stays |
| Seqs.FilterIsSubsequence | app/check-disaster/page.js:34-39 | the filtered list keeps the original order |
| Seqs.Take | app/api/nasa/get-disaster/route.js:12 | `slice(0, n)` is the first n elements, or all of them |
| Sorting.LatestFirstOrders | app/api/nasa/get-disaster/route.js:53 | `new Date(b) - new Date(a)` is NaN exactly when either date is Invalid; otherwise it is positive exactly when b is later and zero exactly when both are equal |
| Sorting.DescendingPrefixIsLatest | app/api/nasa/get-disaster/route.js:11-12 | in a latest-first list, whatever `slice(0, n)` leaves out is no later than anything it keeps |
| Sorting.SortBy | app/api/nasa/get-disaster/route.js:53 | sorting permutes the list |
| Sorting.SortWithoutPositiveKeepsOrder | app/api/nasa/get-disaster/route.js:53 | a comparator that never answers positive (NaN counts as 0) leaves the list as it was |
| Sorting.SortDescending | component/disasterPage.jsx:241-243 | sorting by `key(b) - key(a)` with valid keys leaves the keys descending |
| Sorting.SortHeadIsFirstLatest | component/disasterPage.jsx:241-244 | the head of that sort is the first element with the largest key |

## Left out

- The `fetch` calls, Next.js request and response objects, API keys, `console` output and the one-second `delay` are not modelled. Each remote answer is an input value, and each route answers a status and a JSON value.
- Rendering to JSON text is not modelled. That includes `JSON.stringify` dropping undefined entries; bodies are the values before serialisation.
- Host error messages are not modelled. A throw is a `TypeError` or `RangeError` tag, and the `error.message` that the page `app/check-disaster/page.js` shows for a host failure is the outcome `HostFailure`.
- FEMA's `text()` after a failed `json()` can itself reject, because the body was already read. The model takes the re-read text as an optional input (`FemaNotJson(retext)`).
- Numbers are decimal expansions without exponent notation or floating-point rounding. `toString` of very large or very small numbers is not modelled.
- Strings are sequences of characters. UTF-16 surrogate pairs and Unicode case mapping beyond A to Z are not modelled.
- The page's React state and effects are not modelled. `AreaQueries` gives the geocoding queries the callbacks start, in list order, and whether `Promise.all` rejects. What the geocoder answers and the order in which markers are pushed are not modelled.
- The user-area and selected lists are taken as arrays. The page stores whatever truthy `DisasterDeclarationsSummaries` the FEMA route returns, and that route throws unless it is an array.
- The Haversine distance and the 50-mile marker filter are floating-point trigonometry and are not modelled. Neither are Nominatim forward geocoding and the map's marker rendering.
- The icon objects (URLs and sizes) are reduced to the four kinds `Fire`, `Flood`, `Storm` and `Default`.
- `Date` parsing and `toISOString` are the parameters `parse` and `iso`. The FEMA cutoff (`setMonth` six months back) is the parameter `cutoff`.
- The language-model call (lib/geminiInit.js is not part of this model) and the `JSON.parse` of the cleaned reply are not modelled. A reply whose cleaned text is not JSON makes the route throw; that is left out.
- Sorting.SortBy: the engine's sort algorithm is implementation-defined for an inconsistent comparator, which is the case when some dates are Invalid. The model uses one fixed stable insertion sort. The proved properties do not depend on which algorithm is used: a permutation; feed order when no comparison is positive; descending keys and the first latest element when all keys are valid.
- DisasterPage.SelectedIcon: it states only the empty-list case. The throwing cases are in `SelectedIconThrows`, and the latest-declaration choice is proved only when every date is valid (`SelectedIconIsLatest`).
- NasaFeed.GetDisasters: Nominatim requests that throw are caught by `getLocationDetails` and appear as a failed lookup (`None`). A throw in the merge loop is not possible for the modelled values.
- InsertDisaster.Put: the store's answer to each PUT is never read. The model carries only whether the i-th PUT settled, and a rejected PUT still counts as sent.
- RadiusSearch.Body: a provider body that is not an object with a `features` array makes `features.length` throw, and Next.js then answers 500. That case is not modelled: a provider answer is either a failure or such a collection.
- The notification routes, the pass-through latest-disaster proxy and the UI-only pages are not modelled. They hold no decision logic.

## Findings

| source | as written | input that shows it | evidently intended | confidence | as-written member | corrected member |
|---|---|---|---|---|---|---|
| app/api/nasa/get-disaster/route.js:53 | the comparator reads `b.dateTime` and `a.dateTime`, which the records (keyed `DATE_TIME`) do not have, so every comparison is NaN and the records keep feed order | a feed of two located events whose dates are 2024-01-01 and then 2024-06-01 is answered in that order | the latest record first, as the comment on line 11 says, by reading `DATE_TIME` | not executed | NasaFeed.WrittenRouteKeepsFeedOrder | NasaFeed.IntendedRouteIsLatestFirst |
| app/check-disaster/page.js:37 | the filter reads `disaster.date_time` from the feed's records, which carry `DATE_TIME`, so every feed date is Invalid and the comparison is false | a store whose latest record has `date_time` 2024-01-01 and a feed record with `DATE_TIME` 2024-06-01: nothing is inserted and the page reports "No new disasters to insert." | feed records dated after the store's latest record are inserted, reading `DATE_TIME` | not executed | CheckDisaster.WrittenSyncInsertsNothing | CheckDisaster.IntendedSyncInsertsLater |

=== FILE: check_disaster.dfy ===
/** The "Fetch & Store Disasters" action of the check-disaster page
    (`fetchAndStoreDisasters`): it reads the latest record of the disaster
    store, reads the disaster feed, keeps the feed records dated strictly after
    that record and sends them to the insert route.

    Each of the three requests is an input: `Rejected` when `fetch` or the JSON
    body fails, otherwise the response's `ok` flag and parsed body. `parse` is
    the host's date-string parser. */
module CheckDisaster {
  import opened Results
  import opened JsValues
  import opened Seqs
  import NasaFeed

  datatype Fetched = Rejected | Answered(ok: bool, body: JsValue)

  /** The requests the action sends, in order. */
  datatype Request = LatestStored | FeedFetched | InsertSent(batch: seq<JsValue>)

  /** What the action leaves in `result`. `NothingNew` is the message "No new
      disasters to insert."; `HostFailure` is an error thrown by the host (a
      failed request, a body that is not JSON, a property read on null), whose
      message the model does not render. */
  datatype Outcome = NothingNew | Aborted(message: string) | HostFailure | Stored(reply: JsValue)

  datatype Run = Run(requests: seq<Request>, outcome: Outcome)

  const StoreFailed: string := "Failed to fetch latest disaster from Oracle APEX"
  const FeedFailed: string := "Failed to fetch disasters from NASA API"

  /** The date property of a stored record. */
  const StoreDateKey: string := "date_time"

  /** The date property the filter reads from a feed record, as written. */
  const WrittenDateKey: string := "date_time"

  /** The date property feed records carry. */
  const IntendedDateKey: string := "DATE_TIME"

  /** `apexData?.items?.[0]`: the store's latest record, if any. */
  function Watermark(apexData: JsValue): (r: JsValue)
    ensures Nullish(apexData) || Nullish(OptGet(apexData, "items")) ==> r == Undefined
    ensures OptGet(apexData, "items").Arr? ==>
              r == if |OptGet(apexData, "items").items| > 0 then OptGet(apexData, "items").items[0] else Undefined
  {
    OptAt(OptGet(apexData, "items"), 0)
  }

  /** The filter's verdict on one feed record: every record when there is no
      watermark, otherwise those dated strictly after it. */
  predicate Newer(d: JsValue, latest: JsValue, dateKey: string, parse: string -> Option<int>) {
    !Truthy(latest) ||
    (!Nullish(d) && Later(DateValue(Get(d, dateKey).value, parse), DateValue(Get(latest, StoreDateKey).value, parse)))
  }

  /** The filter callback: `!latest || new Date(d[dateKey]) > new Date(latest.date_time)`.
      Reading the date of a null record throws, unless `||` stops first. */
  function IsNewer(d: JsValue, latest: JsValue, dateKey: string, parse: string -> Option<int>): (r: Completion<bool>)
    ensures r.Abrupt? <==> Truthy(latest) && Nullish(d)
    ensures r.Normal? ==> r.value == Newer(d, latest, dateKey, parse)
  {
    if !Truthy(latest) then Normal(true)
    else
      var date :- Get(d, dateKey);
      Normal(Later(DateValue(date, parse), DateValue(Get(latest, StoreDateKey).value, parse)))
  }

  /** `ds.filter(d => IsNewer(d))`: throws at the first record that throws. */
  function FilterNewer(ds: seq<JsValue>, latest: JsValue, dateKey: string, parse: string -> Option<int>): (r: Completion<seq<JsValue>>)
    ensures r.Abrupt? <==> Truthy(latest) && exists i :: 0 <= i < |ds| && Nullish(ds[i])
    ensures r.Normal? ==> r.value == Filter(ds, (d: JsValue) => Newer(d, latest, dateKey, parse))
  {
    var test := (d: JsValue) => IsNewer(d, latest, dateKey, parse);
    var r := FilterOrThrow(ds, test);
    if r.Normal? then
      FilterOrThrowAs(ds, test, (d: JsValue) => Newer(d, latest, dateKey, parse));
      r
    else r
  }

  /** `fetchAndStoreDisasters` with the filter reading `dateKey`. Each body
      is read before its `ok` flag is looked at, so an unreadable body fails
      even a response that is not `ok`. */
  function Sync(store: Fetched, feed: Fetched, insert: seq<JsValue> -> Fetched,
                dateKey: string, parse: string -> Option<int>): (r: Run)
    ensures 1 <= |r.requests| <= 3
    ensures r.requests[0] == LatestStored
    ensures |r.requests| >= 2 ==> r.requests[1] == FeedFetched
    ensures |r.requests| == 3 ==> r.requests[2].InsertSent? && |r.requests[2].batch| > 0
    ensures r.outcome == Aborted(StoreFailed) <==> store.Answered? && !store.ok
    ensures r.outcome == Aborted(StoreFailed) ==> r.requests == [LatestStored]
    ensures r.outcome == Aborted(FeedFailed) <==> store.Answered? && store.ok && feed.Answered? && !feed.ok
    ensures r.outcome == Aborted(FeedFailed) ==> r.requests == [LatestStored, FeedFetched]
    ensures store.Rejected? ==> r == Run([LatestStored], HostFailure)
    ensures store.Answered? && store.ok && feed.Rejected? ==> r == Run([LatestStored, FeedFetched], HostFailure)
    ensures store.Answered? && store.ok && feed.Answered? && feed.ok && !feed.body.Arr? ==>
              r == Run([LatestStored, FeedFetched], HostFailure)
    ensures Fetchable(store, feed) && Truthy(Watermark(store.body))
            && (exists i :: 0 <= i < |feed.body.items| && Nullish(feed.body.items[i])) ==>
              r == Run([LatestStored, FeedFetched], HostFailure)
    ensures |r.requests| == 3 && insert(r.requests[2].batch).Answered? ==>
              r.outcome == Stored(insert(r.requests[2].batch).body)
    ensures |r.requests| == 3 && insert(r.requests[2].batch).Rejected? ==> r.outcome == HostFailure
    ensures r.outcome.Stored? ==> |r.requests| == 3 && r.outcome == Stored(insert(r.requests[2].batch).body)
    ensures r.outcome == NothingNew ==> r.requests == [LatestStored, FeedFetched]
  {
    if store.Rejected? then Run([LatestStored], HostFailure)
    else if !store.ok then Run([LatestStored], Aborted(StoreFailed))
    else
      var latest := Watermark(store.body);
      if feed.Rejected? then Run([LatestStored, FeedFetched], HostFailure)
      else if !feed.ok then Run([LatestStored, FeedFetched], Aborted(FeedFailed))
      else if !feed.body.Arr? then Run([LatestStored, FeedFetched], HostFailure)
      else
        var kept := FilterNewer(feed.body.items, latest, dateKey, parse);
        if kept.Abrupt? then Run([LatestStored, FeedFetched], HostFailure)
        else if |kept.value| == 0 then Run([LatestStored, FeedFetched], NothingNew)
        else
          var requests := [LatestStored, FeedFetched, InsertSent(kept.value)];
          var reply := insert(kept.value);
          if reply.Rejected? then Run(requests, HostFailure)
          else Run(requests, Stored(reply.body))
  }

  /** Both responses read and `ok`, and the feed an array: the filter runs. */
  predicate Fetchable(store: Fetched, feed: Fetched) {
    store.Answered? && store.ok && feed.Answered? && feed.ok && feed.body.Arr?
  }

  /** The batch the action sends is the feed's records that pass the filter,
      in feed order; when none passes it sends nothing. */
  lemma SyncSendsNewer(store: Fetched, feed: Fetched, insert: seq<JsValue> -> Fetched,
                       dateKey: string, parse: string -> Option<int>)
    requires Fetchable(store, feed)
    requires FilterNewer(feed.body.items, Watermark(store.body), dateKey, parse).Normal?
    ensures var kept := Filter(feed.body.items, (d: JsValue) => Newer(d, Watermark(store.body), dateKey, parse));
            var r := Sync(store, feed, insert, dateKey, parse);
            && Subsequence(kept, feed.body.items)
            && (|kept| == 0 ==> r.outcome == NothingNew)
            && (|kept| > 0 ==> r.requests == [LatestStored, FeedFetched, InsertSent(kept)])
  {
    FilterIsSubsequence(feed.body.items, (d: JsValue) => Newer(d, Watermark(store.body), dateKey, parse));
  }

  /** With no stored record the filter keeps the whole feed. */
  lemma NoWatermarkKeepsAll(ds: seq<JsValue>, latest: JsValue, dateKey: string, parse: string -> Option<int>)
    requires !Truthy(latest)
    ensures FilterNewer(ds, latest, dateKey, parse) == Normal(ds)
  {
    FilterAll(ds, (d: JsValue) => Newer(d, latest, dateKey, parse));
  }

  /** An empty store (no `items`, or none in it) has no watermark. */
  lemma EmptyStoreHasNoWatermark(apexData: JsValue)
    requires !Nullish(apexData)
    requires var items := Get(apexData, "items").value; Nullish(items) || items == Arr([])
    ensures !Truthy(Watermark(apexData))
  {
  }

  /** Against a watermark, a record is kept exactly when its date is strictly
      later: an equal date, a missing date or an unreadable one is dropped. */
  lemma KeptExactlyWhenLater(d: JsValue, latest: JsValue, dateKey: string, parse: string -> Option<int>)
    requires Truthy(latest) && !Nullish(d)
    ensures var mine := DateValue(Get(d, dateKey).value, parse);
            var theirs := DateValue(Get(latest, StoreDateKey).value, parse);
            && (Newer(d, latest, dateKey, parse) <==> mine.Some? && theirs.Some? && mine.value > theirs.value)
            && (Get(d, dateKey).value == Undefined ==> !Newer(d, latest, dateKey, parse))
  {
  }

  /** The items the NASA route answers are objects keyed in upper case (plus
      lower-case place names): none has a `date_time`, and each has its
      `DATE_TIME`. */
  lemma RouteItemsLackWrittenDate(items: seq<JsValue>)
    requires NasaFeed.AllItems(items)
    ensures forall i :: 0 <= i < |items| ==>
              !Nullish(items[i]) && Get(items[i], WrittenDateKey).value == Undefined
              && Get(items[i], IntendedDateKey).value == items[i].props[IntendedDateKey]
  {
    assert WrittenDateKey !in NasaFeed.RecordKeys + NasaFeed.PlaceKeys;
    assert IntendedDateKey in NasaFeed.RecordKeys;
  }

  /** As written, the filter reads `date_time` from the feed's records, which
      have none (the NASA route's items are keyed in upper case): each date is
      an Invalid Date, so once the store holds any record nothing is ever
      inserted. */
  lemma WrittenSyncInsertsNothing(store: Fetched, feed: Fetched, insert: seq<JsValue> -> Fetched,
                                  parse: string -> Option<int>)
    requires Fetchable(store, feed) && Truthy(Watermark(store.body))
    requires forall i :: 0 <= i < |feed.body.items| ==>
               !Nullish(feed.body.items[i]) && Get(feed.body.items[i], WrittenDateKey).value == Undefined
    ensures Sync(store, feed, insert, WrittenDateKey, parse) == Run([LatestStored, FeedFetched], NothingNew)
  {
    var ds := feed.body.items;
    var latest := Watermark(store.body);
    forall i | 0 <= i < |ds|
      ensures !Newer(ds[i], latest, WrittenDateKey, parse)
    {
      assert DateValue(Get(ds[i], WrittenDateKey).value, parse) == None;
    }
    FilterNone(ds, (d: JsValue) => Newer(d, latest, WrittenDateKey, parse));
  }

  /** Reading `DATE_TIME`, a feed record dated after the store's latest
      record is sent to the insert route. */
  lemma IntendedSyncInsertsLater(store: Fetched, feed: Fetched, insert: seq<JsValue> -> Fetched,
                                 parse: string -> Option<int>, k: int)
    requires Fetchable(store, feed) && Truthy(Watermark(store.body))
    requires forall i :: 0 <= i < |feed.body.items| ==> !Nullish(feed.body.items[i])
    requires 0 <= k < |feed.body.items|
    requires Later(DateValue(Get(feed.body.items[k], IntendedDateKey).value, parse),
                   DateValue(Get(Watermark(store.body), StoreDateKey).value, parse))
    ensures var r := Sync(store, feed, insert, IntendedDateKey, parse);
            |r.requests| == 3 && feed.body.items[k] in r.requests[2].batch
  {
    var ds := feed.body.items;
    var latest := Watermark(store.body);
    var p := (d: JsValue) => Newer(d, latest, IntendedDateKey, parse);
    assert p(ds[k]);
    FilterKeeps(ds, p, k);
    assert FilterNewer(ds, latest, IntendedDateKey, parse) == Normal(Filter(ds, p));
  }
}

=== FILE: disaster_page.dfy ===
/** The decision logic of the disasters map page (`DisastersPage`): the marker
    icon a declaration gets from its incident type, the icon of the selected
    location (from its latest declaration), the colour of the circle around
    the user, and which declarations are geocoded at all.

    The declaration lists are the arrays the FEMA route answers with; `parse`
    is the host's date-string parser. */
module DisasterPage {
  import opened Results
  import opened Strings
  import opened JsValues
  import opened Seqs
  import opened Sorting

  datatype Icon = Fire | Flood | Storm | Default

  datatype Colour = Red | Blue

  const TypeKey: string := "incidentType"
  const DateKey: string := "declarationDate"
  const TitleKey: string := "declarationTitle"
  const AreaKey: string := "designatedArea"

  /** The icon for a lower-cased incident type: "fire" wins over "flood",
      which wins over "storm"; anything else gets the default marker. */
  function Classify(lowered: string): (icon: Icon)
    ensures icon == Fire <==> Contains(lowered, "fire")
    ensures icon == Flood <==> !Contains(lowered, "fire") && Contains(lowered, "flood")
    ensures icon == Storm <==> !Contains(lowered, "fire") && !Contains(lowered, "flood") && Contains(lowered, "storm")
    ensures icon == Default <==> !Contains(lowered, "fire") && !Contains(lowered, "flood") && !Contains(lowered, "storm")
  {
    if Contains(lowered, "fire") then Fire
    else if Contains(lowered, "flood") then Flood
    else if Contains(lowered, "storm") then Storm
    else Default
  }

  /** `disaster.incidentType?.toLowerCase() || ""`: reading a property of a
      null declaration throws, and so does calling `toLowerCase` on a value
      that is not a string (it has no such method). */
  function LoweredType(d: JsValue): (r: Completion<string>)
    ensures r.Abrupt? <==> Nullish(d) || (!Nullish(Get(d, TypeKey).value) && !Get(d, TypeKey).value.Str?)
    ensures r.Normal? && Nullish(Get(d, TypeKey).value) ==> r.value == ""
    ensures r.Normal? && Get(d, TypeKey).value.Str? ==> r.value == ToLower(Get(d, TypeKey).value.s)
  {
    var t :- Get(d, TypeKey);
    if Nullish(t) then Normal("")
    else if !t.Str? then Abrupt(TypeError)
    else Normal(ToLower(t.s))
  }

  /** `getDisasterIcon`. */
  function IconFor(d: JsValue): (r: Completion<Icon>)
    ensures r.Abrupt? <==> LoweredType(d).Abrupt?
    ensures r.Normal? ==> r.value == Classify(LoweredType(d).value)
  {
    var lowered :- LoweredType(d);
    Normal(Classify(lowered))
  }

  /** A declaration whose incident type mentions fire, in any letter case,
      gets the fire icon even if it also mentions flood or storm. */
  lemma FireWins(d: JsValue)
    requires !Nullish(d) && Get(d, TypeKey).value.Str?
    requires Contains(ToLower(Get(d, TypeKey).value.s), "fire")
    ensures IconFor(d) == Normal(Fire)
  {
  }

  /** A declaration without an incident type gets the default marker. */
  lemma MissingTypeIsDefault(d: JsValue)
    requires !Nullish(d) && Nullish(Get(d, TypeKey).value)
    ensures IconFor(d) == Normal(Default)
  {
    assert !Contains("", "fire") && !Contains("", "flood") && !Contains("", "storm");
  }

  /** The icon does not depend on letter case: an incident type and its
      lower-case form get the same icon. */
  lemma IconIgnoresCase(d: JsValue, e: JsValue)
    requires !Nullish(d) && !Nullish(e)
    requires Get(d, TypeKey).value.Str? && Get(e, TypeKey).value == Str(ToLower(Get(d, TypeKey).value.s))
    ensures IconFor(d) == IconFor(e)
  {
    ToLowerIdempotent(Get(d, TypeKey).value.s);
  }

  /** The time of a declaration: `new Date(d.declarationDate)`. */
  function DeclarationTime(parse: string -> Option<int>): JsValue -> Option<int>
  {
    (d: JsValue) => if Nullish(d) then None else DateValue(Get(d, DateKey).value, parse)
  }

  /** `selectedLocationIcon`: the default marker for no declarations, else
      the icon of the head of the declarations sorted latest first.
      `Array.prototype.sort` moves undefined elements to the end without
      calling the comparator; a null element throws, in the comparator when
      there are two or more defined elements, in `getDisasterIcon` otherwise;
      and an array of undefined elements leaves undefined at its head. */
  function SelectedIcon(selected: seq<JsValue>, parse: string -> Option<int>): (r: Completion<Icon>)
    ensures |selected| == 0 ==> r == Normal(Default)
  {
    if |selected| == 0 then Normal(Default)
    else
      var defined := Filter(selected, (v: JsValue) => v != Undefined);
      if exists i :: 0 <= i < |defined| && defined[i] == Null then
        Abrupt(TypeError)
      else if |defined| == 0 then Abrupt(TypeError)
      else
        IconFor(SortBy(defined, LatestFirst(DeclarationTime(parse)))[0])
  }

  /** The selected location's icon throws a TypeError when some declaration
      is null, and when every one is undefined. */
  lemma SelectedIconThrows(selected: seq<JsValue>, parse: string -> Option<int>)
    requires |selected| > 0
    requires (exists i :: 0 <= i < |selected| && selected[i] == Null)
             || (forall i :: 0 <= i < |selected| ==> selected[i] == Undefined)
    ensures SelectedIcon(selected, parse) == Abrupt(TypeError)
  {
    var p := (v: JsValue) => v != Undefined;
    if k :| 0 <= k < |selected| && selected[k] == Null {
      FilterKeeps(selected, p, k);
    } else {
      FilterNone(selected, p);
    }
  }

  /** With readable declarations whose dates are all valid, the selected
      location's icon is the icon of the first declaration with the latest
      date. */
  lemma SelectedIconIsLatest(selected: seq<JsValue>, parse: string -> Option<int>)
    requires |selected| > 0
    requires forall i :: 0 <= i < |selected| ==> !Nullish(selected[i])
    requires AllKeyed(selected, DeclarationTime(parse))
    ensures exists k :: IsFirstLatest(selected, DeclarationTime(parse), k)
                        && SelectedIcon(selected, parse) == IconFor(selected[k])
  {
    var p := (v: JsValue) => v != Undefined;
    FilterAll(selected, p);
    SortHeadIsFirstLatest(selected, DeclarationTime(parse));
  }

  /** `disasters && disasters.length > 0 ? "red" : "blue"` for the user's own
      declarations. */
  function CircleColour(disasters: seq<JsValue>): (c: Colour)
    ensures c == Red <==> |disasters| > 0
  {
    if |disasters| > 0 then Red else Blue
  }

  /** `disaster.declarationTitle || disaster.designatedArea`: what a
      declaration is geocoded by, None when that is falsy (`if (!area) return`).
      Reading a property of a null declaration throws. */
  function AreaQuery(d: JsValue): (r: Completion<Option<JsValue>>)
    ensures r.Abrupt? <==> Nullish(d)
    ensures r.Normal? && r.value.Some? ==> Truthy(r.value.value)
    ensures r.Normal? && Truthy(Get(d, TitleKey).value) ==> r.value == Some(Get(d, TitleKey).value)
  {
    var title :- Get(d, TitleKey);
    var area := Or(title, Get(d, AreaKey).value);
    if !Truthy(area) then Normal(None) else Normal(Some(area))
  }

  /** A declaration with neither a title nor a designated area is never
      geocoded, and one without a title is geocoded by its area. */
  lemma AreaFallback(d: JsValue)
    requires !Nullish(d) && !Truthy(Get(d, TitleKey).value)
    ensures var area := Get(d, AreaKey).value;
            AreaQuery(d) == Normal(if Truthy(area) then Some(area) else None)
  {
  }

  /** What `processDisasters` starts: the geocoding queries, and whether some
      callback threw. */
  datatype Geocoding = Geocoding(queries: seq<JsValue>, rejected: bool)

  /** `Promise.all(ds.map(async (disaster) => ...))` up to the first `await`
      of each callback. The callbacks are `async`, so a null declaration only
      rejects its own promise: every other declaration with a title or an area
      is still geocoded, in list order. A rejection makes `Promise.all` reject,
      and the markers are then never set. */
  function AreaQueries(ds: seq<JsValue>): (g: Geocoding)
    ensures g.rejected <==> exists i :: 0 <= i < |ds| && Nullish(ds[i])
    ensures |g.queries| <= |ds| && forall i :: 0 <= i < |g.queries| ==> Truthy(g.queries[i])
  {
    if |ds| == 0 then Geocoding([], false)
    else
      var first := AreaQuery(ds[0]);
      var rest := AreaQueries(ds[1..]);
      assert forall i :: 1 <= i < |ds| ==> ds[i] == ds[1..][i - 1];
      var mine := if first.Normal? && first.value.Some? then [first.value.value] else [];
      Geocoding(mine + rest.queries, first.Abrupt? || rest.rejected)
  }

  /** A declaration is geocoded exactly when it is readable and has a title
      or an area. */
  predicate Geocoded(d: JsValue) {
    !Nullish(d) && AreaQuery(d).value.Some?
  }

  /** The geocoding queries are, in list order, the title-or-area of each
      declaration that has one; null declarations are skipped. */
  lemma {:induction false} QueriesPerGeocoded(ds: seq<JsValue>)
    ensures var queries := AreaQueries(ds).queries;
            var geocoded := Filter(ds, Geocoded);
            && |queries| == |geocoded|
            && forall i :: 0 <= i < |queries| ==> queries[i] == AreaQuery(geocoded[i]).value.value
  {
    if |ds| > 0 {
      QueriesPerGeocoded(ds[1..]);
    }
  }
}

=== FILE: fema.dfy ===
/** The FEMA lookup route (`GET /api/fema`): it asks the FCC census service
    which state and county a point lies in, asks FEMA for the open disaster
    declarations of that county, and keeps the declarations dated on or after
    a cutoff (six months before the request).

    Both upstream answers are inputs. `fema` is FEMA's answer to the query the
    route builds, so the model also records which query, if any, was sent;
    `cutoff` is the time value of the six-months-ago Date and `parse` the
    host's date-string parser. */
module Fema {
  import opened Results
  import opened JsValues
  import opened Seqs

  /** The FCC reply: not `ok` with its text, or `ok` with its parsed body
      (None when the body is not JSON, which throws). */
  datatype FccReply = FccFailed(text: string) | FccAnswered(body: Option<JsValue>)

  /** The FEMA reply: not `ok` with its text; `ok` with a body that is not
      JSON, and what re-reading the body as text gives (None when that read
      rejects); or `ok` with its parsed body. */
  datatype FemaReply = FemaFailed(text: string) | FemaNotJson(retext: Option<string>) | FemaAnswered(list: JsValue)

  /** The route's JSON answer, or an uncaught throw. */
  datatype Answer = Json(status: int, body: JsValue) | Thrown

  /** The FEMA query: the state FIPS code's text and the county code. */
  datatype Query = Query(state: string, county: string)

  /** The FEMA query, if one was sent, and the route's answer. */
  datatype Lookup = Lookup(query: Option<Query>, answer: Answer)

  const LocationFailed: string := "Failed to fetch location details"
  const MissingFips: string := "Missing FIPS code data in location details"
  const DisasterFailed: string := "Failed to fetch disaster data"
  const InvalidJson: string := "Invalid JSON response from FEMA"
  const SummariesKey: string := "DisasterDeclarationsSummaries"
  const DateKey: string := "declarationDate"

  /** `locationDetails?.<level>?.FIPS`, for the `State` and `County` levels. */
  function Fips(details: JsValue, level: string): (fips: JsValue)
    ensures Nullish(details) || Nullish(OptGet(details, level)) ==> fips == Undefined
    ensures details.Obj? && level in details.props && details.props[level].Obj? && "FIPS" in details.props[level].props
            ==> fips == details.props[level].props["FIPS"]
  {
    OptGet(OptGet(details, level), "FIPS")
  }

  /** `countyFIPS.substring(2)`: the text after the first two characters,
      empty for a shorter text; a value that is not a string has no
      `substring` method and the call throws. */
  function CountyCode(fips: JsValue): (r: Completion<string>)
    ensures r.Abrupt? <==> !fips.Str?
    ensures r.Normal? ==> |r.value| == if |fips.s| < 2 then 0 else |fips.s| - 2
    ensures r.Normal? && |fips.s| >= 2 ==> fips.s[..2] + r.value == fips.s
  {
    if !fips.Str? then Abrupt(TypeError)
    else if |fips.s| < 2 then Normal("")
    else Normal(fips.s[2..])
  }

  /** A five-digit county FIPS code (two digits of state, three of county, as
      FIPS PUB 6-4 lays them out) gives the three-digit county part. */
  lemma CountyCodeOfFiveDigits(s: string)
    requires |s| == 5
    ensures CountyCode(Str(s)) == Normal(s[2..]) && |s[2..]| == 3
    ensures s == s[..2] + CountyCode(Str(s)).value
  {
  }

  /** A declaration is kept when its `declarationDate` is on or after the
      cutoff; reading the date of a null declaration throws. */
  function IsRecent(d: JsValue, cutoff: int, parse: string -> Option<int>): (r: Completion<bool>)
    ensures r.Abrupt? <==> Nullish(d)
    ensures r.Normal? ==> (r.value <==> Recent(d, cutoff, parse))
  {
    var date :- Get(d, DateKey);
    Normal(NotEarlier(DateValue(date, parse), Some(cutoff)))
  }

  /** The verdict of the filter callback on a readable declaration. */
  predicate Recent(d: JsValue, cutoff: int, parse: string -> Option<int>) {
    !Nullish(d) && NotEarlier(DateValue(Get(d, DateKey).value, parse), Some(cutoff))
  }

  /** The list FEMA sent with its declarations narrowed to the recent ones,
      when it has a truthy `DisasterDeclarationsSummaries`. */
  function Narrow(list: JsValue, cutoff: int, parse: string -> Option<int>): (r: Completion<JsValue>)
    ensures r.Abrupt? <==>
              Nullish(list)
              || (Truthy(Get(list, SummariesKey).value) &&
                  (!Get(list, SummariesKey).value.Arr? ||
                   exists i :: 0 <= i < |Get(list, SummariesKey).value.items| && Nullish(Get(list, SummariesKey).value.items[i])))
    ensures r.Normal? && !Truthy(Get(list, SummariesKey).value) ==> r.value == list
    ensures r.Normal? && Truthy(Get(list, SummariesKey).value) ==>
              list.Obj? && r.value == Obj(list.props[SummariesKey := Arr(Filter(Get(list, SummariesKey).value.items, (d: JsValue) => Recent(d, cutoff, parse)))])
  {
    var summaries :- Get(list, SummariesKey);
    if !Truthy(summaries) then Normal(list)
    else if !summaries.Arr? then Abrupt(TypeError)
    else
      var test := (d: JsValue) => IsRecent(d, cutoff, parse);
      var kept := FilterOrThrow(summaries.items, test);
      if kept.Abrupt? then Abrupt(kept.error)
      else
        FilterOrThrowAs(summaries.items, test, (d: JsValue) => Recent(d, cutoff, parse));
        Normal(Obj(list.props[SummariesKey := Arr(kept.value)]))
  }

  function Message(status: int, key: string, text: string, detailKey: string, detail: JsValue): Answer {
    Json(status, Obj(map[key := Str(text), detailKey := detail]))
  }

  /** The route handler. */
  function Handle(fcc: FccReply, fema: Query -> FemaReply, cutoff: int,
                  parse: string -> Option<int>): (r: Lookup)
    ensures r.answer.Json? ==> r.answer.status in {200, 500}
    ensures fcc.FccFailed? ==> r == Lookup(None, Message(500, "error", LocationFailed, "details", Str(fcc.text)))
    ensures r.query.Some? <==>
              fcc.FccAnswered? && fcc.body.Some?
              && Truthy(Fips(fcc.body.value, "State")) && Truthy(Fips(fcc.body.value, "County"))
              && Fips(fcc.body.value, "County").Str?
    ensures r.query.Some? ==>
              r.query.value == Query(ToString(Fips(fcc.body.value, "State")), CountyCode(Fips(fcc.body.value, "County")).value)
    ensures r.query.Some? && fema(r.query.value).FemaFailed? ==>
              r.answer == Message(500, "error", DisasterFailed, "details", Str(fema(r.query.value).text))
    ensures r.answer.Json? && r.answer.status == 200 ==>
              r.query.Some? && fema(r.query.value).FemaAnswered?
              && Narrow(fema(r.query.value).list, cutoff, parse).Normal?
    ensures r.query.Some? ==> r.answer == Respond(fema(r.query.value), cutoff, parse)
    ensures fcc.FccAnswered? && fcc.body.None? ==> r == Lookup(None, Thrown)
    ensures fcc.FccAnswered? && fcc.body.Some?
              && Truthy(Fips(fcc.body.value, "State")) && Truthy(Fips(fcc.body.value, "County"))
              && !Fips(fcc.body.value, "County").Str?
            ==> r == Lookup(None, Thrown)
  {
    match fcc
    case FccFailed(text) => Lookup(None, Message(500, "error", LocationFailed, "details", Str(text)))
    case FccAnswered(None) => Lookup(None, Thrown)
    case FccAnswered(Some(details)) =>
      var state := Fips(details, "State");
      var county := Fips(details, "County");
      if !Truthy(state) || !Truthy(county) then
        Lookup(None, Message(500, "error", MissingFips, "locationDetails", details))
      else
        var code := CountyCode(county);
        if code.Abrupt? then Lookup(None, Thrown)
        else
          var query := Query(ToString(state), code.value);
          Lookup(Some(query), Respond(fema(query), cutoff, parse))
  }

  /** What the route answers once FEMA has replied. */
  function Respond(reply: FemaReply, cutoff: int, parse: string -> Option<int>): (r: Answer)
    ensures r.Json? ==> r.status in {200, 500}
    ensures reply.FemaFailed? ==> r == Message(500, "error", DisasterFailed, "details", Str(reply.text))
    ensures reply.FemaNotJson? ==>
              r == if reply.retext.Some? then Message(500, "error", InvalidJson, "text", Str(reply.retext.value)) else Thrown
    ensures r.Json? && r.status == 200 <==> reply.FemaAnswered? && Narrow(reply.list, cutoff, parse).Normal?
    ensures r.Json? && r.status == 200 ==> r.body == Obj(Spread(Narrow(reply.list, cutoff, parse).value))
  {
    match reply
    case FemaFailed(text) => Message(500, "error", DisasterFailed, "details", Str(text))
    case FemaNotJson(retext) =>
      if retext.Some? then Message(500, "error", InvalidJson, "text", Str(retext.value)) else Thrown
    case FemaAnswered(list) =>
      var narrowed := Narrow(list, cutoff, parse);
      if narrowed.Abrupt? then Thrown else Json(200, Obj(Spread(narrowed.value)))
  }

  /** A failed FCC request, an unreadable FCC body or a missing FIPS code ends
      the route before FEMA is asked, with a 500 or a throw. */
  lemma NoFipsNoQuery(fcc: FccReply, fema: Query -> FemaReply, cutoff: int, parse: string -> Option<int>)
    requires fcc.FccAnswered? && fcc.body.Some?
    requires !Truthy(Fips(fcc.body.value, "State")) || !Truthy(Fips(fcc.body.value, "County"))
    ensures Handle(fcc, fema, cutoff, parse) ==
              Lookup(None, Message(500, "error", MissingFips, "locationDetails", fcc.body.value))
  {
  }

  /** With string FIPS codes the query names the state code and the county
      code without its first two characters. */
  lemma QueryUsesCountyCode(fcc: FccReply, fema: Query -> FemaReply, cutoff: int, parse: string -> Option<int>)
    requires fcc.FccAnswered? && fcc.body.Some?
    requires var state := Fips(fcc.body.value, "State"); state.Str? && state.s != ""
    requires var county := Fips(fcc.body.value, "County"); county.Str? && |county.s| == 5
    ensures Handle(fcc, fema, cutoff, parse).query ==
              Some(Query(Fips(fcc.body.value, "State").s, Fips(fcc.body.value, "County").s[2..]))
  {
  }

  /** A body with no (or a falsy) `DisasterDeclarationsSummaries` comes back
      as it was sent. */
  lemma NoSummariesUnchanged(list: JsValue, cutoff: int, parse: string -> Option<int>)
    requires list.Obj? && !Truthy(Get(list, SummariesKey).value)
    ensures Respond(FemaAnswered(list), cutoff, parse) == Json(200, list)
  {
  }

  /** With readable declarations, the answer is FEMA's body with the
      declarations narrowed to the recent ones, in their original order. */
  lemma RecentDeclarationsKept(list: JsValue, cutoff: int, parse: string -> Option<int>)
    requires list.Obj? && SummariesKey in list.props && list.props[SummariesKey].Arr?
    requires var ds := list.props[SummariesKey].items; forall i :: 0 <= i < |ds| ==> !Nullish(ds[i])
    ensures var ds := list.props[SummariesKey].items;
            var kept := Filter(ds, (d: JsValue) => Recent(d, cutoff, parse));
            && Respond(FemaAnswered(list), cutoff, parse) == Json(200, Obj(list.props[SummariesKey := Arr(kept)]))
            && Subsequence(kept, ds)
  {
    var ds := list.props[SummariesKey].items;
    FilterIsSubsequence(ds, (d: JsValue) => Recent(d, cutoff, parse));
  }

  /** A declaration stays exactly when it is dated on or after the cutoff: one
      with a missing or unreadable date is dropped. */
  lemma WindowIsExact(ds: seq<JsValue>, cutoff: int, parse: string -> Option<int>, k: int)
    requires 0 <= k < |ds| && !Nullish(ds[k])
    ensures var kept := Filter(ds, (d: JsValue) => Recent(d, cutoff, parse));
            var date := DateValue(Get(ds[k], DateKey).value, parse);
            && (date.Some? && date.value >= cutoff ==> ds[k] in kept)
            && (forall i :: 0 <= i < |kept| ==>
                  var t := DateValue(Get(kept[i], DateKey).value, parse); t.Some? && t.value >= cutoff)
  {
    var p := (d: JsValue) => Recent(d, cutoff, parse);
    if p(ds[k]) {
      FilterKeeps(ds, p, k);
    }
  }

  /** A null declaration makes the filter throw, so the route throws. */
  lemma NullDeclarationThrows(list: JsValue, cutoff: int, parse: string -> Option<int>, k: int)
    requires list.Obj? && SummariesKey in list.props && list.props[SummariesKey].Arr?
    requires 0 <= k < |list.props[SummariesKey].items| && Nullish(list.props[SummariesKey].items[k])
    ensures Respond(FemaAnswered(list), cutoff, parse) == Thrown
  {
  }
}

=== FILE: insert_disaster.dfy ===
/** The insert route (`PUT /api/oracle/insert-disaster`): it takes an array of
    disaster records, gives each the store's column layout with "Unknown" for
    missing values, and sends one PUT per record to the store, in order.

    `body` is the parsed request body (None when it is not JSON), and
    `delivered(i)` says whether the store's PUT for the i-th record settled
    (false when `fetch` rejects). The store's answer is never
    inspected, so the model does not carry it. */
module InsertDisaster {
  import opened Results
  import opened JsValues

  const Unknown: string := "Unknown"
  const Processed: string := "Disasters processed"
  const NotAnArray: string := "Invalid input format. Expected an array."
  const InternalError: string := "Internal Server Error"

  /** The store's columns. */
  const Columns: set<string> :=
    {"DISASTER_NAME", "DISASTER_TYPE", "LATITUDE", "LONGITUDE", "DATE_TIME", "COUNTY", "STATE", "COUNTRY"}

  /** The record property a column is read from: the place columns come from
      the lower-case properties the reverse geocoder adds, the others from the
      property of the same name. */
  function SourceKey(column: string): string
  {
    if column == "COUNTY" then "county"
    else if column == "STATE" then "state"
    else if column == "COUNTRY" then "country"
    else column
  }

  /** The columns written as the value's text rather than as the value. */
  predicate AsText(column: string) {
    column == "LATITUDE" || column == "LONGITUDE" || column == "DATE_TIME"
  }

  /** `v || "Unknown"`. */
  function OrUnknown(v: JsValue): (r: JsValue)
    ensures Truthy(v) ==> r == v
    ensures !Truthy(v) ==> r == Str(Unknown)
  {
    Or(v, Str(Unknown))
  }

  /** `v?.toString() || "Unknown"`. */
  function TextOrUnknown(v: JsValue): (r: JsValue)
    ensures r.Str? && r.s != ""
    ensures Nullish(v) ==> r == Str(Unknown)
    ensures !Nullish(v) && ToString(v) != "" ==> r == Str(ToString(v))
  {
    if Nullish(v) then Str(Unknown) else Or(Str(ToString(v)), Str(Unknown))
  }

  /** One entry of `formattedDisaster`. */
  function Column(d: JsValue, column: string): JsValue
    requires !Nullish(d)
  {
    var v := Get(d, SourceKey(column)).value;
    if AsText(column) then TextOrUnknown(v) else OrUnknown(v)
  }

  /** `formattedDisaster`: reading a property of a null record throws. */
  function Format(d: JsValue): (r: Completion<JsValue>)
    ensures r.Abrupt? <==> Nullish(d)
    ensures r.Normal? ==> r.value.Obj? && r.value.props.Keys == Columns
  {
    if Nullish(d) then Abrupt(TypeError)
    else Normal(Obj(map column | column in Columns :: Column(d, column)))
  }

  /** The name, type and place columns keep a truthy value and write
      "Unknown" for any falsy one (an empty string, 0, false, null,
      undefined); the place columns read `county`, `state` and `country`. */
  lemma ValueColumnsDefault(d: JsValue, column: string)
    requires !Nullish(d) && column in Columns && !AsText(column)
    ensures var v := Get(d, SourceKey(column)).value;
            Format(d).value.props[column] == if Truthy(v) then v else Str(Unknown)
    ensures SourceKey("COUNTY") == "county" && SourceKey("STATE") == "state" && SourceKey("COUNTRY") == "country"
  {
  }

  /** The coordinate and date columns write the value's text, and "Unknown"
      only for null, undefined or a value whose text is empty. */
  lemma TextColumnsAsText(d: JsValue, column: string)
    requires !Nullish(d) && column in Columns && AsText(column)
    ensures var v := Get(d, column).value;
            Format(d).value.props[column] ==
              if Nullish(v) || ToString(v) == "" then Str(Unknown) else Str(ToString(v))
  {
  }

  /** A coordinate of 0 is written "0", not "Unknown", though 0 is falsy. */
  lemma ZeroCoordinateKept(d: JsValue)
    requires !Nullish(d) && Get(d, "LATITUDE").value == Num(Finite(false, 0, []))
    ensures Format(d).value.props["LATITUDE"] == Str("0")
  {
    TextColumnsAsText(d, "LATITUDE");
  }

  /** How many records the loop got to send, and whether it stopped on a
      throw. */
  datatype Progress = Progress(count: nat, failed: bool)

  /** The record `d` at index `i` is formatted without a throw and its PUT
      settles. */
  predicate Sendable(d: JsValue, i: nat, delivered: nat -> bool) {
    !Nullish(d) && delivered(i)
  }

  /** The `for` loop: format a record, send its PUT, go on; a throw while
      formatting or a rejected PUT ends the loop. A record whose PUT was
      rejected still counts as sent. Written over the prefix the loop has
      seen, so that `delivered` keeps the records' own indices. */
  function Process(ds: seq<JsValue>, delivered: nat -> bool): (r: Progress)
    ensures r.count <= |ds|
    ensures forall i :: 0 <= i < r.count ==> !Nullish(ds[i])
    ensures !r.failed ==> r.count == |ds|
  {
    if |ds| == 0 then Progress(0, false)
    else
      var n := |ds| - 1;
      var before := Process(ds[..n], delivered);
      assert forall i :: 0 <= i < n ==> ds[..n][i] == ds[i];
      if before.failed then before
      else if Nullish(ds[n]) then Progress(n, true)
      else if !delivered(n) then Progress(n + 1, true)
      else Progress(n + 1, false)
  }

  /** The loop stops early exactly when some record cannot be sent: the
      first one that throws or whose PUT is rejected. */
  lemma {:induction false} ProcessFailsOnUnsendable(ds: seq<JsValue>, delivered: nat -> bool)
    ensures Process(ds, delivered).failed <==> exists i :: 0 <= i < |ds| && !Sendable(ds[i], i, delivered)
  {
    if |ds| > 0 {
      var n := |ds| - 1;
      ProcessFailsOnUnsendable(ds[..n], delivered);
      assert forall i :: 0 <= i < n ==> ds[..n][i] == ds[i];
    }
  }

  /** The loop ends at the first record that cannot be sent: before a record
      that throws, or after a record whose PUT is rejected. */
  lemma {:induction false} ProcessStopsAt(ds: seq<JsValue>, delivered: nat -> bool, k: nat)
    requires k < |ds| && !Sendable(ds[k], k, delivered)
    requires forall i :: 0 <= i < k ==> Sendable(ds[i], i, delivered)
    ensures Process(ds, delivered) == Progress(if Nullish(ds[k]) then k else k + 1, true)
  {
    var n := |ds| - 1;
    assert forall i :: 0 <= i < n ==> ds[..n][i] == ds[i];
    if n == k {
      ProcessFailsOnUnsendable(ds[..n], delivered);
      assert forall i :: 0 <= i < n ==> Sendable(ds[..n][i], i, delivered);
    } else {
      ProcessStopsAt(ds[..n], delivered, k);
    }
  }

  /** The bodies of the PUTs sent for `ds`, in order. */
  function Payloads(ds: seq<JsValue>): (r: seq<JsValue>)
    requires forall i :: 0 <= i < |ds| ==> !Nullish(ds[i])
    ensures |r| == |ds|
    ensures forall i :: 0 <= i < |ds| ==> Format(ds[i]) == Normal(r[i])
  {
    seq(|ds|, i requires 0 <= i < |ds| => Format(ds[i]).value)
  }

  /** The route's answer and the PUTs it sent to the store, in order. */
  datatype Reply = Reply(status: int, body: JsValue, puts: seq<JsValue>)

  function Message(status: int, key: string, text: string, puts: seq<JsValue>): Reply
  {
    Reply(status, Obj(map[key := Str(text)]), puts)
  }

  /** The route handler. `delivered(i)` says whether the PUT of the i-th
      record settled. */
  function Put(body: Option<JsValue>, delivered: nat -> bool): (r: Reply)
    ensures r.status in {200, 400, 500}
    ensures body.None? ==> r == Message(500, "error", InternalError, [])
    ensures body.Some? && !body.value.Arr? ==> r == Message(400, "error", NotAnArray, [])
    ensures r.status == 200 ==> r.body == Obj(map["message" := Str(Processed)])
    ensures body.Some? && body.value.Arr? ==> (r.status == 200 <==> !Process(body.value.items, delivered).failed)
    ensures body.Some? && body.value.Arr? ==> r.puts == Payloads(body.value.items[..Process(body.value.items, delivered).count])
  {
    if body.None? then Message(500, "error", InternalError, [])
    else if !body.value.Arr? then Message(400, "error", NotAnArray, [])
    else
      var p := Process(body.value.items, delivered);
      var puts := Payloads(body.value.items[..p.count]);
      if p.failed then Message(500, "error", InternalError, puts)
      else Message(200, "message", Processed, puts)
  }

  /** When no record is null and every PUT settles, exactly one PUT per
      record is sent, in array order, and the route answers 200. */
  lemma OnePutPerRecord(ds: seq<JsValue>, delivered: nat -> bool)
    requires forall i :: 0 <= i < |ds| ==> !Nullish(ds[i]) && delivered(i)
    ensures var r := Put(Some(Arr(ds)), delivered);
            r.status == 200 && r.puts == Payloads(ds)
  {
    ProcessFailsOnUnsendable(ds, delivered);
    assert ds[..|ds|] == ds;
  }

  /** A null record answers 500 after the PUTs of every record before it
      were sent. */
  lemma NullRecordStopsAfterEarlierPuts(ds: seq<JsValue>, delivered: nat -> bool, k: nat)
    requires k < |ds| && Nullish(ds[k])
    requires forall i :: 0 <= i < k ==> !Nullish(ds[i]) && delivered(i)
    ensures var r := Put(Some(Arr(ds)), delivered);
            r == Message(500, "error", InternalError, Payloads(ds[..k]))
  {
    ProcessStopsAt(ds, delivered, k);
  }

  /** A rejected PUT answers 500, after the PUTs of that record and of every
      record before it were sent; later records are never sent. */
  lemma RejectedPutStopsAfterIt(ds: seq<JsValue>, delivered: nat -> bool, k: nat)
    requires k < |ds| && !Nullish(ds[k]) && !delivered(k)
    requires forall i :: 0 <= i < k ==> !Nullish(ds[i]) && delivered(i)
    ensures var r := Put(Some(Arr(ds)), delivered);
            r == Message(500, "error", InternalError, Payloads(ds[..k + 1]))
  {
    ProcessStopsAt(ds, delivered, k);
  }
}

=== FILE: jsvalues.dfy ===
/** The JavaScript values that travel through the modelled handlers as parsed
    JSON, and the language rules the handlers lean on: truthiness (`||`),
    nullishness (`?.`), `toString`, property reads that throw on null, and the
    coercion `new Date(v)` applies. */
module JsValues {
  import opened Results
  import opened Strings
  import opened Numbers

  type Digit = d: int | 0 <= d < 10

  /** A JavaScript number. A finite one is held as its decimal expansion: the
      sign, the integer part and the digits after the point (trailing zeros allowed). */
  datatype JsNumber =
    | NaN
    | Infinity(negative: bool)
    | Finite(negative: bool, whole: nat, fraction: seq<Digit>)

  datatype JsValue =
    | Undefined
    | Null
    | Bool(b: bool)
    | Num(n: JsNumber)
    | Str(s: string)
    | Arr(items: seq<JsValue>)
    | Obj(props: map<string, JsValue>)

  /** The fraction digits once trailing zeros are dropped. */
  function Significant(f: seq<Digit>): (g: seq<Digit>)
    ensures |g| <= |f| && g == f[..|g|]
    ensures |g| > 0 ==> g[|g| - 1] != 0
    ensures forall i :: |g| <= i < |f| ==> f[i] == 0
  {
    if |f| == 0 || f[|f| - 1] != 0 then f else Significant(f[..|f| - 1])
  }

  /** Positive or negative zero. */
  predicate IsZero(n: JsNumber) {
    n.Finite? && n.whole == 0 && Significant(n.fraction) == []
  }

  /** `null` and `undefined`: the values `?.` and `??` stop at. */
  predicate Nullish(v: JsValue) {
    v.Undefined? || v.Null?
  }

  /** ToBoolean: what `if (v)`, `!v` and `v || w` test. */
  predicate Truthy(v: JsValue) {
    match v
    case Undefined => false
    case Null => false
    case Bool(b) => b
    case Num(n) => !n.NaN? && !IsZero(n)
    case Str(s) => s != ""
    case Arr(_) => true
    case Obj(_) => true
  }

  /** The falsy values: undefined, null, false, NaN, either zero and the
      empty string; for a string, truthiness is having non-empty text. */
  lemma FalsyValues(v: JsValue)
    ensures !Truthy(v) <==> Nullish(v) || v == Bool(false) || v == Str("") || (v.Num? && (v.n.NaN? || IsZero(v.n)))
    ensures v.Str? ==> (Truthy(v) <==> ToString(v) != "")
  {
  }

  function FractionText(f: seq<Digit>): (s: string)
    ensures |s| == |f|
  {
    if |f| == 0 then "" else FractionText(f[..|f| - 1]) + [DigitChar(f[|f| - 1])]
  }

  /** `Number.prototype.toString()` for numbers written without an exponent. */
  function NumberToString(n: JsNumber): (s: string)
    ensures |s| > 0
    ensures IsZero(n) ==> s == "0"
  {
    match n
    case NaN => "NaN"
    case Infinity(neg) => if neg then "-Infinity" else "Infinity"
    case Finite(neg, w, f) =>
      var g := Significant(f);
      (if neg && !IsZero(n) then "-" else "")
      + NatToString(w)
      + (if g == [] then "" else "." + FractionText(g))
  }

  /** ToString, as template literals, `String(v)` and `v.toString()` apply it.
      An array joins its elements with "," and writes null and undefined as "". */
  function ToString(v: JsValue): (s: string)
    ensures v.Str? ==> s == v.s
    ensures v.Num? ==> |s| > 0
    ensures v.Arr? && |v.items| == 0 ==> s == ""
    ensures v.Arr? && |v.items| == 1 ==> s == ElementText(v.items[0])
    decreases v, 0
  {
    match v
    case Undefined => "undefined"
    case Null => "null"
    case Bool(b) => if b then "true" else "false"
    case Num(n) => NumberToString(n)
    case Str(s) => s
    case Arr(items) => Join(ElementTexts(items), ",")
    case Obj(_) => "[object Object]"
  }

  /** The text `Array.prototype.join` writes for one element: nothing for null
      and undefined. */
  function ElementText(v: JsValue): string
    decreases v, 1
  {
    if Nullish(v) then "" else ToString(v)
  }

  /** The text `Array.prototype.join` writes for each element. */
  function ElementTexts(items: seq<JsValue>): (r: seq<string>)
    ensures |r| == |items|
    ensures forall i :: 0 <= i < |items| ==> r[i] == ElementText(items[i])
    decreases items, 2
  {
    if |items| == 0 then []
    else [ElementText(items[0])] + ElementTexts(items[1..])
  }

  /** `v.key` for a key that is not one of the built-in properties: reading a
      property of null or undefined throws; an object yields its own entry; every
      other value has no such property. */
  function Get(v: JsValue, key: string): (r: Completion<JsValue>)
    ensures r.Abrupt? <==> Nullish(v)
    ensures r.Abrupt? ==> r.error == TypeError
    ensures r.Normal? && r.value != Undefined ==> v.Obj? && key in v.props && v.props[key] == r.value
  {
    match v
    case Undefined => Abrupt(TypeError)
    case Null => Abrupt(TypeError)
    case Obj(m) => Normal(if key in m then m[key] else Undefined)
    case _ => Normal(Undefined)
  }

  /** `a || b`: the first operand when it is truthy, otherwise the second. */
  function Or(a: JsValue, b: JsValue): (r: JsValue)
    ensures Truthy(a) ==> r == a
    ensures !Truthy(a) ==> r == b
  {
    if Truthy(a) then a else b
  }

  /** `v?.key`: undefined when `v` is nullish, otherwise `v.key`. */
  function OptGet(v: JsValue, key: string): (r: JsValue)
    ensures Nullish(v) ==> r == Undefined
    ensures !Nullish(v) ==> Get(v, key) == Normal(r)
  {
    if Nullish(v) then Undefined else Get(v, key).value
  }

  /** `v[i]`: an array element, a one-character string, an object entry under the
      index's text, or undefined; throws when `v` is nullish. */
  function At(v: JsValue, i: nat): (r: Completion<JsValue>)
    ensures r.Abrupt? <==> Nullish(v)
    ensures v.Arr? ==> r == Normal(if i < |v.items| then v.items[i] else Undefined)
  {
    match v
    case Undefined => Abrupt(TypeError)
    case Null => Abrupt(TypeError)
    case Arr(items) => Normal(if i < |items| then items[i] else Undefined)
    case Str(s) => Normal(if i < |s| then Str([s[i]]) else Undefined)
    case Obj(m) =>
      var k := NatToString(i);
      Normal(if k in m then m[k] else Undefined)
    case _ => Normal(Undefined)
  }

  /** `v?.[i]`. */
  function OptAt(v: JsValue, i: nat): (r: JsValue)
    ensures Nullish(v) ==> r == Undefined
    ensures !Nullish(v) ==> At(v, i) == Normal(r)
  {
    if Nullish(v) then Undefined else At(v, i).value
  }

  /** The entries `{ ...v }` copies: an object's own entries, an array's
      elements or a string's characters under the text of their index, and
      nothing for any other value. */
  function Spread(v: JsValue): (m: map<string, JsValue>)
    ensures v.Obj? ==> m == v.props
    ensures !v.Obj? && !v.Arr? && !v.Str? ==> m == map[]
  {
    match v
    case Obj(props) => props
    case Arr(items) => IndexEntries(items)
    case Str(s) => IndexEntries(seq(|s|, j requires 0 <= j < |s| => Str([s[j]])))
    case _ => map[]
  }

  /** Each value under the decimal text of its index. */
  function IndexEntries(vs: seq<JsValue>): (m: map<string, JsValue>)
  {
    if |vs| == 0 then map[]
    else IndexEntries(vs[..|vs| - 1])[NatToString(|vs| - 1) := vs[|vs| - 1]]
  }

  lemma {:induction false} IndexEntriesAt(vs: seq<JsValue>, i: nat)
    requires i < |vs|
    ensures NatToString(i) in IndexEntries(vs) && IndexEntries(vs)[NatToString(i)] == vs[i]
  {
    if i < |vs| - 1 {
      NatToStringInjective(i);
      IndexEntriesAt(vs[..|vs| - 1], i);
    }
  }

  /** An array's or a string's entry under the text of an index is what
      indexing reads there. */
  lemma SpreadIndex(v: JsValue, i: nat)
    requires (v.Arr? && i < |v.items|) || (v.Str? && i < |v.s|)
    ensures NatToString(i) in Spread(v) && At(v, i) == Normal(Spread(v)[NatToString(i)])
  {
    if v.Arr? {
      IndexEntriesAt(v.items, i);
    } else {
      IndexEntriesAt(seq(|v.s|, j requires 0 <= j < |v.s| => Str([v.s[j]])), i);
    }
  }

  /** The largest magnitude of a time value (section 21.4.1.31 of ECMA-262). */
  const MaxTimeValue: int := 8_640_000_000_000_000

  /** TimeClip: a time value out of range makes an Invalid Date. */
  function TimeClip(t: int): (r: Option<int>)
    ensures r.Some? <==> -MaxTimeValue <= t <= MaxTimeValue
    ensures r.Some? ==> r.value == t
  {
    if -MaxTimeValue <= t <= MaxTimeValue then Some(t) else None
  }

  /** A number used as a time value: truncated toward zero, then clipped. */
  function NumberToTime(n: JsNumber): Option<int>
  {
    match n
    case NaN => None
    case Infinity(_) => None
    case Finite(neg, w, _) => TimeClip(if neg then -(w as int) else w)
  }

  /** A date string's time value: the host parser's result, clipped as the
      `Date` constructor clips it. */
  function ParseTime(s: string, parse: string -> Option<int>): (r: Option<int>)
    ensures r.Some? <==> parse(s).Some? && -MaxTimeValue <= parse(s).value <= MaxTimeValue
    ensures r.Some? ==> r == parse(s)
  {
    if parse(s).Some? then TimeClip(parse(s).value) else None
  }

  /** The time value of `new Date(v)` in milliseconds, None for an Invalid Date.
      `parse` is the host's date-string parser. */
  function DateValue(v: JsValue, parse: string -> Option<int>): (r: Option<int>)
    ensures v == Undefined ==> r == None
    ensures v == Null ==> r == Some(0)
    ensures v.Str? ==> r == ParseTime(v.s, parse)
    ensures r.Some? ==> -MaxTimeValue <= r.value <= MaxTimeValue
  {
    match v
    case Undefined => None
    case Null => Some(0)
    case Bool(b) => Some(if b then 1 else 0)
    case Num(n) => NumberToTime(n)
    case Str(s) => ParseTime(s, parse)
    case Arr(_) => ParseTime(ToString(v), parse)
    case Obj(_) => ParseTime(ToString(v), parse)
  }

  /** `a > b` on two Dates: false when either is an Invalid Date. */
  predicate Later(a: Option<int>, b: Option<int>) {
    a.Some? && b.Some? && a.value > b.value
  }

  /** `a >= b` on two Dates. */
  predicate NotEarlier(a: Option<int>, b: Option<int>) {
    a.Some? && b.Some? && a.value >= b.value
  }

  /** `a - b` on two Dates: None is NaN. */
  function Difference(a: Option<int>, b: Option<int>): (r: Option<int>)
    ensures r.Some? <==> a.Some? && b.Some?
    ensures r.Some? ==> r.value + b.value == a.value
  {
    if a.Some? && b.Some? then Some(a.value - b.value) else None
  }
}

=== FILE: nasa_feed.dfy ===
/** The disaster feed route (`GET /api/nasa/get-disaster`): it reads the NASA
    EONET event list, turns every located event into a flat record, orders the
    records by date, keeps the first ten and adds the county, city, state and
    country that Nominatim's reverse geocoder reports for each record's point.

    The two remote services are parameters: `feed` is the parsed EONET body
    (None when the request or its JSON failed) and `reverse(lat, lon)` is the
    parsed Nominatim body for one point (None when that request failed).
    `parse` is the host's date-string parser and `iso` renders a time value as
    `Date.prototype.toISOString` does. */
module NasaFeed {
  import opened Results
  import opened Strings
  import opened JsValues
  import opened Seqs
  import opened Sorting

  const NameKey: string := "DISASTER_NAME"
  const TypeKey: string := "DISASTER_TYPE"
  const LatitudeKey: string := "LATITUDE"
  const LongitudeKey: string := "LONGITUDE"
  const TimeKey: string := "DATE_TIME"

  /** The properties of a disaster record. */
  const RecordKeys: set<string> := {NameKey, TypeKey, LatitudeKey, LongitudeKey, TimeKey}

  /** The properties a successful reverse geocoding adds. */
  const PlaceKeys: set<string> := {"county", "city", "state", "country"}

  /** The property the route's comparator reads, which no record has. */
  const WrittenSortKey: string := "dateTime"

  /** The property that holds a record's date. */
  const IntendedSortKey: string := "DATE_TIME"

  /** How many records the route returns at most. */
  const Latest: nat := 10

  const InternalError: string := "Internal Server Error"
  const FetchFailed: string := "Failed to fetch disaster data."

  /** A disaster record, keyed by `RecordKeys`. */
  function Record(name: JsValue, kind: JsValue, lat: JsValue, lon: JsValue, time: JsValue): (r: JsValue)
    ensures r.Obj? && r.props.Keys == RecordKeys
  {
    Obj(map[NameKey := name, TypeKey := kind, LatitudeKey := lat, LongitudeKey := lon, TimeKey := time])
  }

  predicate IsRecord(v: JsValue) {
    v.Obj? && v.props.Keys == RecordKeys
  }

  /** Every element is a record. */
  predicate AllRecords(xs: seq<JsValue>) {
    forall i :: 0 <= i < |xs| ==> xs[i].Obj? && xs[i].props.Keys == RecordKeys
  }

  /** An answered item: a record's fields, plus the place names when the
      reverse geocoder found an address. */
  predicate IsItem(v: JsValue) {
    v.Obj? && RecordKeys <= v.props.Keys && v.props.Keys <= RecordKeys + PlaceKeys
  }

  /** Every element is an answered item. */
  predicate AllItems(xs: seq<JsValue>) {
    forall i :: 0 <= i < |xs| ==> IsItem(xs[i])
  }

  /** The record an item was built from: its fields without the place names. */
  function RecordOf(v: JsValue): (r: JsValue)
    ensures r.Obj? && r.props.Keys == (if v.Obj? then v.props.Keys * RecordKeys else {})
  {
    if v.Obj? then Obj(map k | k in v.props.Keys * RecordKeys :: v.props[k]) else Obj(map[])
  }

  function RecordsOf(items: seq<JsValue>): (r: seq<JsValue>)
    ensures |r| == |items| && forall i :: 0 <= i < |items| ==> r[i] == RecordOf(items[i])
  {
    seq(|items|, i requires 0 <= i < |items| => RecordOf(items[i]))
  }

  /** `const [first, second] = v`: destructuring iterates an array or the
      characters of a string; any other value is not iterable. */
  function Destructure2(v: JsValue): (r: Completion<(JsValue, JsValue)>)
    ensures r.Abrupt? <==> !v.Arr? && !v.Str?
    ensures r.Normal? ==> r.value == (At(v, 0).value, At(v, 1).value)
  {
    match v
    case Arr(items) =>
      Normal((if 0 < |items| then items[0] else Undefined, if 1 < |items| then items[1] else Undefined))
    case Str(s) =>
      Normal((if 0 < |s| then Str([s[0]]) else Undefined, if 1 < |s| then Str([s[1]]) else Undefined))
    case _ => Abrupt(TypeError)
  }

  /** `xs.map(x => x[key])`: throws at the first null or undefined element. */
  function MapGet(xs: seq<JsValue>, key: string): (r: Completion<seq<JsValue>>)
    ensures r.Abrupt? <==> exists i :: 0 <= i < |xs| && Nullish(xs[i])
    ensures r.Normal? ==> |r.value| == |xs|
    ensures r.Normal? ==> forall i :: 0 <= i < |xs| ==> Get(xs[i], key) == Normal(r.value[i])
  {
    if |xs| == 0 then Normal([])
    else
      var first :- Get(xs[0], key);
      var rest :- MapGet(xs[1..], key);
      assert forall i :: 1 <= i < |xs| ==> xs[i] == xs[1..][i - 1];
      Normal([first] + rest)
  }

  /** `categories.map(cat => cat.title).join(", ")`. */
  function CategoryTitles(categories: JsValue): (r: Completion<string>)
    ensures r.Abrupt? <==> !categories.Arr? || exists i :: 0 <= i < |categories.items| && Nullish(categories.items[i])
  {
    if !categories.Arr? then Abrupt(TypeError)
    else
      var titles :- MapGet(categories.items, "title");
      Normal(Join(ElementTexts(titles), ", "))
  }

  /** The first geometry entry of an event, `event.geometry[0]`. */
  function FirstGeometry(event: JsValue): (r: Completion<JsValue>)
    ensures r.Abrupt? <==> Nullish(event) || Nullish(Get(event, "geometry").value)
  {
    var geometry :- Get(event, "geometry");
    At(geometry, 0)
  }

  /** Both a truthy `coordinates` and a truthy `date` on the geometry entry. */
  predicate Located(g: JsValue) {
    Truthy(OptGet(g, "coordinates")) && Truthy(OptGet(g, "date"))
  }

  /** One step of the `map` in `sortDisastersByDate`: null for an event without
      coordinates or date, otherwise its record. The date is rendered as an ISO
      string, which throws a RangeError for an Invalid Date. */
  function Normalize(event: JsValue, parse: string -> Option<int>, iso: int -> string): (r: Completion<JsValue>)
    ensures r.Normal? ==> r.value == Null || IsRecord(r.value)
    ensures Nullish(event) ==> r == Abrupt(TypeError)
    ensures r.Normal? && r.value == Null <==> FirstGeometry(event).Normal? && !Located(FirstGeometry(event).value)
  {
    var g :- FirstGeometry(event);
    var coords := OptGet(g, "coordinates");
    var date := OptGet(g, "date");
    if !Truthy(coords) || !Truthy(date) then Normal(Null)
    else
      var point :- Destructure2(coords);
      // `event` is neither null nor undefined once its geometry was read.
      var name := Get(event, "title").value;
      var kind :- CategoryTitles(Get(event, "categories").value);
      var t := DateValue(date, parse);
      if t.None? then Abrupt(RangeError)
      else Normal(Record(name, Str(kind), point.1, point.0, Str(iso(t.value))))
  }

  /** A record carries the event's title, the second coordinate as latitude, the
      first as longitude (GeoJSON order), the joined category titles and the
      ISO text of the event's date. */
  lemma NormalizeFields(event: JsValue, parse: string -> Option<int>, iso: int -> string)
    requires Normalize(event, parse, iso).Normal? && Normalize(event, parse, iso).value != Null
    ensures var rec := Normalize(event, parse, iso).value.props;
            var g := FirstGeometry(event).value;
            var coords := OptGet(g, "coordinates");
            var t := DateValue(OptGet(g, "date"), parse);
            && Located(g)
            && t.Some?
            && rec[NameKey] == Get(event, "title").value
            && rec[TypeKey] == Str(CategoryTitles(Get(event, "categories").value).value)
            && rec[LatitudeKey] == At(coords, 1).value
            && rec[LongitudeKey] == At(coords, 0).value
            && rec[TimeKey] == Str(iso(t.value))
  {
  }

  /** A located event whose date the host cannot read makes `toISOString`
      throw, once its coordinates and categories have been read. */
  lemma InvalidDateThrows(event: JsValue, parse: string -> Option<int>, iso: int -> string)
    requires FirstGeometry(event).Normal? && Located(FirstGeometry(event).value)
    requires var coords := OptGet(FirstGeometry(event).value, "coordinates"); coords.Arr? || coords.Str?
    requires CategoryTitles(Get(event, "categories").value).Normal?
    requires DateValue(OptGet(FirstGeometry(event).value, "date"), parse).None?
    ensures Normalize(event, parse, iso) == Abrupt(RangeError)
  {
  }

  /** `events.map(normalize)`: throws with the first event that throws. */
  function NormalizeAll(events: seq<JsValue>, parse: string -> Option<int>, iso: int -> string): (r: Completion<seq<JsValue>>)
    ensures r.Abrupt? <==> exists i :: 0 <= i < |events| && Normalize(events[i], parse, iso).Abrupt?
    ensures r.Normal? ==> |r.value| == |events|
    ensures r.Normal? ==> forall i :: 0 <= i < |events| ==> Normalize(events[i], parse, iso) == Normal(r.value[i])
  {
    if |events| == 0 then Normal([])
    else
      var first :- Normalize(events[0], parse, iso);
      var rest :- NormalizeAll(events[1..], parse, iso);
      assert forall i :: 1 <= i < |events| ==> events[i] == events[1..][i - 1];
      Normal([first] + rest)
  }

  /** The records of the located events, in feed order: `map` then
      `filter(event => event)`. A value that is not an array has no `map`. */
  function Records(events: JsValue, parse: string -> Option<int>, iso: int -> string): (r: Completion<seq<JsValue>>)
    ensures r.Abrupt? <==> !events.Arr? || exists i :: 0 <= i < |events.items| && Normalize(events.items[i], parse, iso).Abrupt?
  {
    if !events.Arr? then Abrupt(TypeError)
    else
      var normalized :- NormalizeAll(events.items, parse, iso);
      Normal(Filter(normalized, Truthy))
  }

  /** Every located event yields exactly one record, and the records keep
      the feed's order. */
  lemma {:induction false} RecordsOfLocatedEvents(events: seq<JsValue>, parse: string -> Option<int>, iso: int -> string)
    requires NormalizeAll(events, parse, iso).Normal?
    ensures var normalized := NormalizeAll(events, parse, iso).value;
            var records := Filter(normalized, Truthy);
            && Subsequence(records, normalized)
            && |records| == |events| - |Filter(normalized, (v: JsValue) => v == Null)|
  {
    var normalized := NormalizeAll(events, parse, iso).value;
    FilterIsSubsequence(normalized, Truthy);
    RecordOrNullCount(normalized);
  }

  /** In a list of records and nulls, the truthy entries are the non-null ones. */
  lemma {:induction false} RecordOrNullCount(xs: seq<JsValue>)
    requires forall i :: 0 <= i < |xs| ==> xs[i] == Null || IsRecord(xs[i])
    ensures |Filter(xs, Truthy)| == |xs| - |Filter(xs, (v: JsValue) => v == Null)|
  {
    if |xs| > 0 {
      RecordOrNullCount(xs[1..]);
    }
  }

  /** The time of `new Date(record[field])`. */
  function FieldTime(field: string, parse: string -> Option<int>): JsValue -> Option<int>
  {
    (x: JsValue) => DateValue(OptGet(x, field), parse)
  }

  /** `records.sort((a, b) => new Date(b[field]) - new Date(a[field]))`. */
  function ByDate(records: seq<JsValue>, field: string, parse: string -> Option<int>): (r: seq<JsValue>)
    ensures multiset(r) == multiset(records)
  {
    SortBy(records, LatestFirst(FieldTime(field, parse)))
  }

  /** The comparator as written reads `dateTime`, which no record has: both
      dates are Invalid, every comparison is NaN, and the sort keeps the feed
      order. */
  lemma WrittenSortKeepsFeedOrder(records: seq<JsValue>, parse: string -> Option<int>)
    requires AllRecords(records)
    ensures ByDate(records, WrittenSortKey, parse) == records
  {
    var cmp := LatestFirst(FieldTime(WrittenSortKey, parse));
    assert WrittenSortKey !in RecordKeys;
    forall i, j | 0 <= i < |records| && 0 <= j < |records|
      ensures !Positive(cmp(records[i], records[j]))
    {
      assert FieldTime(WrittenSortKey, parse)(records[i]) == None;
    }
    SortWithoutPositiveKeepsOrder(records, cmp);
  }

  /** Reading the record's own `DATE_TIME`, the sort puts the latest record
      first, provided the host parses back what `toISOString` writes. */
  lemma IntendedSortIsDescending(records: seq<JsValue>, parse: string -> Option<int>, iso: int -> string)
    requires forall t: int :: -MaxTimeValue <= t <= MaxTimeValue ==> parse(iso(t)) == Some(t)
    requires forall i :: 0 <= i < |records| ==> IssuedTime(records[i], iso)
    ensures Descending(ByDate(records, IntendedSortKey, parse), FieldTime(IntendedSortKey, parse))
  {
    var key := FieldTime(IntendedSortKey, parse);
    forall i | 0 <= i < |records|
      ensures key(records[i]).Some?
    {
      var t :| -MaxTimeValue <= t <= MaxTimeValue && OptGet(records[i], TimeKey) == Str(iso(t));
    }
    SortDescending(records, key);
  }

  /** The record's `DATE_TIME` is text `toISOString` wrote for a time value,
      which is always within the range of section 21.4.1.31 of ECMA-262. */
  ghost predicate IssuedTime(rec: JsValue, iso: int -> string) {
    exists t :: -MaxTimeValue <= t <= MaxTimeValue && OptGet(rec, TimeKey) == Str(iso(t))
  }

  /** Every record comes from one event of the feed. */
  lemma RecordOrigin(events: JsValue, parse: string -> Option<int>, iso: int -> string, i: int)
    requires Records(events, parse, iso).Normal? && 0 <= i < |Records(events, parse, iso).value|
    ensures Records(events, parse, iso).value[i] != Null
    ensures exists k :: 0 <= k < |events.items| && Normalize(events.items[k], parse, iso) == Normal(Records(events, parse, iso).value[i])
  {
    var normalized := NormalizeAll(events.items, parse, iso).value;
    assert Records(events, parse, iso).value == Filter(normalized, Truthy);
    FilterMember(normalized, Truthy, i);
  }

  /** A record's `DATE_TIME` is the ISO text of its event's date. */
  lemma NormalizeIssuesTime(event: JsValue, parse: string -> Option<int>, iso: int -> string)
    requires Normalize(event, parse, iso).Normal? && Normalize(event, parse, iso).value != Null
    ensures IsRecord(Normalize(event, parse, iso).value)
    ensures IssuedTime(Normalize(event, parse, iso).value, iso)
  {
    var t := DateValue(OptGet(FirstGeometry(event).value, "date"), parse).value;
    assert OptGet(Normalize(event, parse, iso).value, TimeKey) == Str(iso(t));
  }

  /** Every record `Records` builds carries an ISO date. */
  lemma RecordIssuesTime(events: JsValue, parse: string -> Option<int>, iso: int -> string, i: int)
    requires Records(events, parse, iso).Normal? && 0 <= i < |Records(events, parse, iso).value|
    ensures IsRecord(Records(events, parse, iso).value[i])
    ensures IssuedTime(Records(events, parse, iso).value[i], iso)
  {
    RecordOrigin(events, parse, iso, i);
    var k :| 0 <= k < |events.items| && Normalize(events.items[k], parse, iso) == Normal(Records(events, parse, iso).value[i]);
    NormalizeIssuesTime(events.items[k], parse, iso);
  }

  /** `getLocationDetails(lat, lon)` for the parsed reverse-geocoding reply: an
      empty object when the request fails, when the reply is null (reading
      `address` throws and the error is caught) or has no address; otherwise
      the four place names, each null when the address lacks it. The city
      falls back to the town and then the village. */
  function LocationDetails(reply: Option<JsValue>): (r: JsValue)
    ensures r.Obj?
    ensures r.props.Keys == {} || r.props.Keys == PlaceKeys
    ensures r.props.Keys == {} <==> reply.None? || Nullish(reply.value) || !Truthy(Get(reply.value, "address").value)
  {
    if reply.None? || Nullish(reply.value) then Obj(map[])
    else
      var address := Get(reply.value, "address").value;
      if !Truthy(address) then Obj(map[])
      else
        Obj(map[
          "county" := Or(Get(address, "county").value, Null),
          "city" := Or(Or(Or(Get(address, "city").value, Get(address, "town").value), Get(address, "village").value), Null),
          "state" := Or(Get(address, "state").value, Null),
          "country" := Or(Get(address, "country").value, Null)])
  }

  /** Each place name is the address's own truthy entry or null; the city is
      the first truthy one of city, town and village. */
  lemma LocationFallbacks(reply: Option<JsValue>)
    requires LocationDetails(reply).props.Keys == PlaceKeys
    ensures var place := LocationDetails(reply).props;
            var address := Get(reply.value, "address").value;
            && (forall k :: k in place ==> Truthy(place[k]) || place[k] == Null)
            && (forall k :: k in place && k != "city" ==> place[k] == (if Truthy(Get(address, k).value) then Get(address, k).value else Null))
            && place["city"] == (if Truthy(Get(address, "city").value) then Get(address, "city").value
                                 else if Truthy(Get(address, "town").value) then Get(address, "town").value
                                 else if Truthy(Get(address, "village").value) then Get(address, "village").value
                                 else Null)
  {
  }

  /** `{ ...record, ...location }`: the entries of both, later ones winning. */
  function Merge(rec: JsValue, location: JsValue): (r: JsValue)
    ensures r.Obj? && r.props.Keys == Spread(rec).Keys + Spread(location).Keys
  {
    Obj(Spread(rec) + Spread(location))
  }

  /** The place names never overwrite a record's own fields. */
  lemma MergeKeepsRecord(rec: JsValue, reply: Option<JsValue>)
    requires IsRecord(rec)
    ensures var merged := Merge(rec, LocationDetails(reply));
            && (forall k :: k in RecordKeys ==> merged.props[k] == rec.props[k])
            && (forall k :: k in LocationDetails(reply).props ==> merged.props[k] == LocationDetails(reply).props[k])
  {
    assert RecordKeys * PlaceKeys == {};
  }

  /** The point a record asks Nominatim about: `(LATITUDE, LONGITUDE)`. */
  function Point(rec: JsValue): (JsValue, JsValue)
  {
    (OptGet(rec, LatitudeKey), OptGet(rec, LongitudeKey))
  }

  /** What the route answers: the status, the body before serialisation, and
      the points it reverse-geocoded, in order. */
  datatype Reply = Reply(status: int, body: JsValue, lookups: seq<(JsValue, JsValue)>)

  function ErrorReply(message: string): (r: Reply)
    ensures r.status == 500 && r.lookups == []
  {
    Reply(500, Obj(map["error" := Str(message)]), [])
  }

  /** The `for` loop: each record merged with the place names of its point. */
  function Detailed(latest: seq<JsValue>, reverse: (JsValue, JsValue) -> Option<JsValue>): (r: seq<JsValue>)
    ensures |r| == |latest|
    ensures forall i :: 0 <= i < |latest| ==>
              r[i] == Merge(latest[i], LocationDetails(reverse(Point(latest[i]).0, Point(latest[i]).1)))
  {
    seq(|latest|, i requires 0 <= i < |latest| => Merge(latest[i], LocationDetails(reverse(Point(latest[i]).0, Point(latest[i]).1))))
  }

  /** The points of the records, in order. */
  function Points(latest: seq<JsValue>): (r: seq<(JsValue, JsValue)>)
    ensures |r| == |latest|
    ensures forall i :: 0 <= i < |latest| ==> r[i] == Point(latest[i])
  {
    seq(|latest|, i requires 0 <= i < |latest| => Point(latest[i]))
  }

  /** Sorting keeps every element a record. */
  lemma ByDateKeepsRecords(records: seq<JsValue>, field: string, parse: string -> Option<int>, i: int)
    requires AllRecords(records)
    requires 0 <= i < |ByDate(records, field, parse)|
    ensures IsRecord(ByDate(records, field, parse)[i])
  {
    assert ByDate(records, field, parse)[i] in multiset(records);
  }

  /** The feed was read, has events, and every event normalises without a
      throw: the route answers 200. */
  predicate Answered(feed: Option<JsValue>, parse: string -> Option<int>, iso: int -> string) {
    feed.Some? && Truthy(feed.value) && Truthy(Get(feed.value, "events").value)
    && Records(Get(feed.value, "events").value, parse, iso).Normal?
  }

  /** The route handler. `sortKey` is the property the comparator reads:
      `WrittenSortKey` reproduces the route as it stands, `IntendedSortKey` the
      ordering its comment describes. */
  function GetDisasters(feed: Option<JsValue>, parse: string -> Option<int>, iso: int -> string,
                        reverse: (JsValue, JsValue) -> Option<JsValue>, sortKey: string): (r: Reply)
    ensures r.status == 200 || r.status == 500
    ensures r.status == 500 ==> r.lookups == []
    ensures feed.None? ==> r == ErrorReply(InternalError)
    ensures feed.Some? && (!Truthy(feed.value) || !Truthy(Get(feed.value, "events").value)) ==> r == ErrorReply(FetchFailed)
    ensures r.status == 200 <==> Answered(feed, parse, iso)
    ensures feed.Some? && Truthy(feed.value) && Truthy(Get(feed.value, "events").value) && !Answered(feed, parse, iso) ==>
              r == ErrorReply(InternalError)
    ensures r.status == 200 ==> r.body.Arr? && |r.body.items| == |r.lookups| <= Latest
  {
    if feed.None? then ErrorReply(InternalError)
    else
      var data := feed.value;
      if !Truthy(data) || !Truthy(Get(data, "events").value) then ErrorReply(FetchFailed)
      else
        var records := Records(Get(data, "events").value, parse, iso);
        if records.Abrupt? then ErrorReply(InternalError)
        else
          var latest := Take(ByDate(records.value, sortKey, parse), Latest);
          Reply(200, Arr(Detailed(latest, reverse)), Points(latest))
  }

  /** A successful answer is the first `Latest` sorted records, each with its
      place names, and the points of those records. */
  lemma RouteUnfolds(feed: Option<JsValue>, parse: string -> Option<int>, iso: int -> string,
                    reverse: (JsValue, JsValue) -> Option<JsValue>, sortKey: string)
    requires Answered(feed, parse, iso)
    ensures var records := Records(Get(feed.value, "events").value, parse, iso);
            var latest := Take(ByDate(records.value, sortKey, parse), Latest);
            && records.Normal?
            && GetDisasters(feed, parse, iso, reverse, sortKey).status == 200
            && GetDisasters(feed, parse, iso, reverse, sortKey).body == Arr(Detailed(latest, reverse))
            && GetDisasters(feed, parse, iso, reverse, sortKey).lookups == Points(latest)
  {
  }

  /** A successful answer holds `Latest` items, or every record when there
      are fewer. The i-th item carries the fields of the i-th record in the
      comparator's order, and besides them only the place names of that
      record's point. That point is the i-th lookup. */
  lemma RouteAnswer(feed: Option<JsValue>, parse: string -> Option<int>, iso: int -> string,
                    reverse: (JsValue, JsValue) -> Option<JsValue>, sortKey: string)
    requires Answered(feed, parse, iso)
    ensures var records := Records(Get(feed.value, "events").value, parse, iso).value;
            var sorted := ByDate(records, sortKey, parse);
            var r := GetDisasters(feed, parse, iso, reverse, sortKey);
            && r.status == 200 && r.body.Arr?
            && |r.body.items| == |r.lookups| == (if Latest < |records| then Latest else |records|)
            && AllItems(r.body.items)
            && forall i :: 0 <= i < |r.body.items| ==>
                 && r.lookups[i] == Point(sorted[i])
                 && (forall k :: k in RecordKeys ==> OptGet(r.body.items[i], k) == OptGet(sorted[i], k))
                 && (forall k :: k in r.body.items[i].props && k !in RecordKeys ==>
                       OptGet(r.body.items[i], k) == OptGet(LocationDetails(reverse(r.lookups[i].0, r.lookups[i].1)), k))
  {
    var events := Get(feed.value, "events").value;
    var records := Records(events, parse, iso).value;
    var sorted := ByDate(records, sortKey, parse);
    RouteUnfolds(feed, parse, iso, reverse, sortKey);
    AnsweredRecords(events, parse, iso);
    LatestAreRecords(records, sortKey, parse);
    AnswerShape(GetDisasters(feed, parse, iso, reverse, sortKey), sorted, reverse);
  }

  /** The shape of an answer built from the first `Latest` of `sorted`. */
  lemma AnswerShape(r: Reply, sorted: seq<JsValue>, reverse: (JsValue, JsValue) -> Option<JsValue>)
    requires AllRecords(Take(sorted, Latest))
    requires r.body == Arr(Detailed(Take(sorted, Latest), reverse)) && r.lookups == Points(Take(sorted, Latest))
    ensures |r.body.items| == |r.lookups| == (if Latest < |sorted| then Latest else |sorted|)
    ensures AllItems(r.body.items)
    ensures forall i :: 0 <= i < |r.body.items| ==>
              && r.lookups[i] == Point(sorted[i])
              && (forall k :: k in RecordKeys ==> OptGet(r.body.items[i], k) == OptGet(sorted[i], k))
              && (forall k :: k in r.body.items[i].props && k !in RecordKeys ==>
                    OptGet(r.body.items[i], k) == OptGet(LocationDetails(reverse(r.lookups[i].0, r.lookups[i].1)), k))
  {
    DetailedShape(Take(sorted, Latest), reverse);
  }

  /** Each item keeps its record's fields and adds the place names of the
      record's point. */
  lemma DetailedShape(latest: seq<JsValue>, reverse: (JsValue, JsValue) -> Option<JsValue>)
    requires AllRecords(latest)
    ensures AllItems(Detailed(latest, reverse))
    ensures forall i :: 0 <= i < |latest| ==>
              var item := Detailed(latest, reverse)[i];
              var place := LocationDetails(reverse(Points(latest)[i].0, Points(latest)[i].1));
              && (forall k :: k in RecordKeys ==> item.props[k] == latest[i].props[k])
              && (forall k :: k in item.props && k !in RecordKeys ==> item.props[k] == place.props[k])
  {
    DetailedAreItems(latest, reverse);
    forall i | 0 <= i < |latest|
      ensures var item := Detailed(latest, reverse)[i];
              var place := LocationDetails(reverse(Points(latest)[i].0, Points(latest)[i].1));
              && (forall k :: k in RecordKeys ==> item.props[k] == latest[i].props[k])
              && (forall k :: k in item.props && k !in RecordKeys ==> item.props[k] == place.props[k])
    {
      MergeKeepsRecord(latest[i], reverse(Point(latest[i]).0, Point(latest[i]).1));
    }
  }

  /** The items are records merged with place names. */
  lemma DetailedAreItems(latest: seq<JsValue>, reverse: (JsValue, JsValue) -> Option<JsValue>)
    requires AllRecords(latest)
    ensures AllItems(Detailed(latest, reverse))
    ensures RecordsOf(Detailed(latest, reverse)) == latest
  {
    forall i | 0 <= i < |latest|
      ensures IsItem(Detailed(latest, reverse)[i]) && RecordOf(Detailed(latest, reverse)[i]) == latest[i]
    {
      var location := LocationDetails(reverse(Point(latest[i]).0, Point(latest[i]).1));
      var item := Detailed(latest, reverse)[i];
      assert item == Merge(latest[i], location);
      MergeKeepsRecord(latest[i], reverse(Point(latest[i]).0, Point(latest[i]).1));
      assert RecordOf(item).props == latest[i].props;
    }
  }

  /** Every answered item keeps its record's fields. */
  lemma DetailedKeepsRecords(latest: seq<JsValue>, reverse: (JsValue, JsValue) -> Option<JsValue>, i: int, k: string)
    requires AllRecords(latest)
    requires 0 <= i < |latest| && k in RecordKeys
    ensures Detailed(latest, reverse)[i].props[k] == latest[i].props[k]
  {
    MergeKeepsRecord(latest[i], reverse(Point(latest[i]).0, Point(latest[i]).1));
  }

  /** As written, the route answers the first ten located events in feed
      order, each with its place names, having looked up each one's point. */
  lemma WrittenRouteKeepsFeedOrder(feed: Option<JsValue>, parse: string -> Option<int>, iso: int -> string,
                                   reverse: (JsValue, JsValue) -> Option<JsValue>)
    requires Answered(feed, parse, iso)
    ensures var r := GetDisasters(feed, parse, iso, reverse, WrittenSortKey);
            var latest := Take(Records(Get(feed.value, "events").value, parse, iso).value, Latest);
            r.body.items == Detailed(latest, reverse) && r.lookups == Points(latest)
  {
    var events := Get(feed.value, "events").value;
    RouteUnfolds(feed, parse, iso, reverse, WrittenSortKey);
    AnsweredRecords(events, parse, iso);
    WrittenSortKeepsFeedOrder(Records(events, parse, iso).value, parse);
  }

  /** Adding place names keeps a record's date. */
  lemma DetailedKeepsTime(latest: seq<JsValue>, reverse: (JsValue, JsValue) -> Option<JsValue>, parse: string -> Option<int>, i: int)
    requires AllRecords(latest) && 0 <= i < |latest|
    ensures FieldTime(IntendedSortKey, parse)(Detailed(latest, reverse)[i]) == FieldTime(IntendedSortKey, parse)(latest[i])
  {
    DetailedKeepsRecords(latest, reverse, i, TimeKey);
    assert OptGet(Detailed(latest, reverse)[i], TimeKey) == OptGet(latest[i], TimeKey);
  }

  /** Adding place names keeps the dates, so it keeps a descending order. */
  lemma DetailedDescending(latest: seq<JsValue>, reverse: (JsValue, JsValue) -> Option<JsValue>, parse: string -> Option<int>)
    requires AllRecords(latest)
    requires Descending(latest, FieldTime(IntendedSortKey, parse))
    ensures Descending(Detailed(latest, reverse), FieldTime(IntendedSortKey, parse))
  {
    forall i | 0 <= i < |latest|
      ensures FieldTime(IntendedSortKey, parse)(Detailed(latest, reverse)[i]) == FieldTime(IntendedSortKey, parse)(latest[i])
    {
      DetailedKeepsTime(latest, reverse, parse, i);
    }
  }

  /** The sorted records, and so their first `Latest`, are records. */
  lemma LatestAreRecords(records: seq<JsValue>, field: string, parse: string -> Option<int>)
    requires AllRecords(records)
    ensures AllRecords(Take(ByDate(records, field, parse), Latest))
  {
    var latest := Take(ByDate(records, field, parse), Latest);
    forall i | 0 <= i < |latest|
      ensures latest[i].Obj? && latest[i].props.Keys == RecordKeys
    {
      ByDateKeepsRecords(records, field, parse, i);
    }
  }

  /** The first elements of a descending list are descending. */
  lemma TakeDescending(xs: seq<JsValue>, n: nat, key: JsValue -> Option<int>)
    requires Descending(xs, key)
    ensures Descending(Take(xs, n), key)
  {
  }

  /** The records of a successful answer all carry ISO dates. */
  lemma AnsweredRecords(events: JsValue, parse: string -> Option<int>, iso: int -> string)
    requires Records(events, parse, iso).Normal?
    ensures var records := Records(events, parse, iso).value;
            AllRecords(records) && forall i :: 0 <= i < |records| ==> IssuedTime(records[i], iso)
  {
    var records := Records(events, parse, iso).value;
    forall i | 0 <= i < |records|
      ensures IsRecord(records[i]) && IssuedTime(records[i], iso)
    {
      RecordIssuesTime(events, parse, iso, i);
    }
  }

  /** With the comparator reading `DATE_TIME`, the answered records run from
      the latest date to the earliest. */
  lemma IntendedRouteIsLatestFirst(feed: Option<JsValue>, parse: string -> Option<int>, iso: int -> string,
                                   reverse: (JsValue, JsValue) -> Option<JsValue>)
    requires forall t: int :: -MaxTimeValue <= t <= MaxTimeValue ==> parse(iso(t)) == Some(t)
    requires Answered(feed, parse, iso)
    ensures var records := Records(Get(feed.value, "events").value, parse, iso).value;
            var items := GetDisasters(feed, parse, iso, reverse, IntendedSortKey).body.items;
            && Descending(items, FieldTime(IntendedSortKey, parse))
            && |items| == (if Latest < |records| then Latest else |records|)
            && multiset(RecordsOf(items)) <= multiset(records)
            && forall rec :: rec in multiset(records) - multiset(RecordsOf(items)) ==>
                 forall i :: 0 <= i < |items| ==> NoLater(rec, items[i], FieldTime(IntendedSortKey, parse))
  {
    var records := Records(Get(feed.value, "events").value, parse, iso).value;
    RouteUnfolds(feed, parse, iso, reverse, IntendedSortKey);
    AnsweredRecords(Get(feed.value, "events").value, parse, iso);
    IntendedSortIsDescending(records, parse, iso);
    var sorted := ByDate(records, IntendedSortKey, parse);
    TakeDescending(sorted, Latest, FieldTime(IntendedSortKey, parse));
    LatestAreRecords(records, IntendedSortKey, parse);
    var latest := Take(sorted, Latest);
    DetailedDescending(latest, reverse, parse);
    assert latest == sorted[..|latest|];
    PrefixItemsAreLatest(sorted, |latest|, reverse, parse);
  }

  /** Items built from a prefix of a descending list of records are no
      earlier than any record left out of the prefix. */
  lemma PrefixItemsAreLatest(sorted: seq<JsValue>, m: nat, reverse: (JsValue, JsValue) -> Option<JsValue>,
                             parse: string -> Option<int>)
    requires m <= |sorted| && AllRecords(sorted[..m])
    requires Descending(sorted, FieldTime(IntendedSortKey, parse))
    ensures var items := Detailed(sorted[..m], reverse);
            && multiset(RecordsOf(items)) <= multiset(sorted)
            && forall rec :: rec in multiset(sorted) - multiset(RecordsOf(items)) ==>
                 forall i :: 0 <= i < |items| ==> NoLater(rec, items[i], FieldTime(IntendedSortKey, parse))
  {
    var latest := sorted[..m];
    DetailedAreItems(latest, reverse);
    assert sorted == latest + sorted[m..];
    assert multiset(sorted) == multiset(latest) + multiset(sorted[m..]);
    DescendingPrefixIsLatest(sorted, m, FieldTime(IntendedSortKey, parse));
    forall i | 0 <= i < m
      ensures FieldTime(IntendedSortKey, parse)(Detailed(latest, reverse)[i]) == FieldTime(IntendedSortKey, parse)(sorted[i])
    {
      DetailedKeepsTime(latest, reverse, parse, i);
    }
  }
}

=== FILE: numbers.dfy ===
/** Integer text conversions of JavaScript: decimal rendering of integers and
    `parseInt` with no radix argument. */
module Numbers {
  import opened Results
  import opened Strings

  /** The digit character for a value below 16 (lower-case letters above 9). */
  function DigitChar(d: nat): (c: char)
    requires d < 16
  {
    "0123456789abcdef"[d]
  }

  /** The value of `c` read as a digit of base `radix`, or None when it is not one. */
  function DigitValue(c: char, radix: nat): (r: Option<nat>)
    ensures r.Some? ==> r.value < radix
  {
    var v: Option<nat> :=
      if '0' <= c <= '9' then Some(c as int - '0' as int)
      else if 'a' <= c <= 'z' then Some(c as int - 'a' as int + 10)
      else if 'A' <= c <= 'Z' then Some(c as int - 'A' as int + 10)
      else None;
    if v.Some? && v.value < radix then v else None
  }

  predicate AllDigits(s: string, radix: nat) {
    forall i :: 0 <= i < |s| ==> DigitValue(s[i], radix).Some?
  }

  /** The value of a digit string, most significant digit first. */
  function DigitsValue(s: string, radix: nat): nat
    requires AllDigits(s, radix)
  {
    if |s| == 0 then 0
    else DigitsValue(s[..|s| - 1], radix) * radix + DigitValue(s[|s| - 1], radix).value
  }

  /** Decimal text of a natural number, without leading zeros. */
  function NatToString(n: nat): (s: string)
    ensures 1 <= |s|
    ensures AllDigits(s, 10)
    ensures |s| > 1 ==> s[0] != '0'
    ensures DigitsValue(s, 10) == n
    decreases n
  {
    if n < 10 then [DigitChar(n)]
    else
      var s := NatToString(n / 10) + [DigitChar(n % 10)];
      assert s[..|s| - 1] == NatToString(n / 10);
      s
  }

  /** Distinct numbers have distinct decimal texts. */
  lemma NatToStringInjective(a: nat)
    ensures forall b: nat :: NatToString(b) == NatToString(a) ==> b == a
  {
  }

  /** Decimal text of an integer, as `String(i)` writes it. */
  function IntToString(i: int): (s: string)
    ensures i < 0 ==> s == "-" + NatToString(-i)
    ensures i >= 0 ==> s == NatToString(i)
  {
    if i < 0 then "-" + NatToString(-i) else NatToString(i)
  }

  /** Length of the longest prefix of `s` made of base-`radix` digits. */
  function DigitRun(s: string, radix: nat): (n: nat)
    ensures n <= |s| && AllDigits(s[..n], radix)
    ensures n < |s| ==> DigitValue(s[n], radix).None?
  {
    if |s| == 0 || DigitValue(s[0], radix).None? then 0
    else
      var n := 1 + DigitRun(s[1..], radix);
      assert s[..n] == [s[0]] + s[1..][..n - 1];
      n
  }

  /** The text after one leading sign, if there is one. */
  function Unsigned(t: string): (u: string)
    ensures |t| > 0 && (t[0] == '-' || t[0] == '+') ==> u == t[1..]
    ensures |t| == 0 || (t[0] != '-' && t[0] != '+') ==> u == t
  {
    if |t| > 0 && (t[0] == '-' || t[0] == '+') then t[1..] else t
  }

  /** The text starts with `0x` or `0X`. */
  predicate HexPrefixed(u: string) {
    |u| >= 2 && u[0] == '0' && (u[1] == 'x' || u[1] == 'X')
  }

  /** `parseInt(s)` with no radix, for the results that are integers: leading
      whitespace is skipped, one sign is read, a `0x`/`0X` prefix selects base 16,
      and the longest run of digits after that is the value. None is NaN: no
      digit follows. A negative zero is returned as 0. */
  function ParseInt(s: string): (r: Option<int>)
    ensures var u := Unsigned(TrimStart(s));
            r.Some? ==> |u| > 0 && DigitValue(u[0], 10).Some?
    ensures var u := Unsigned(TrimStart(s));
            |u| > 0 && DigitValue(u[0], 10).Some? && !HexPrefixed(u) ==> r.Some?
    ensures r.Some? && r.value < 0 ==> TrimStart(s)[0] == '-'
    ensures r.Some? && TrimStart(s)[0] != '-' ==> r.value >= 0
  {
    var t := TrimStart(s);
    var negative := |t| > 0 && t[0] == '-';
    var u := Unsigned(t);
    var hex := HexPrefixed(u);
    var digits := if hex then u[2..] else u;
    var n := if hex then DigitRun(digits, 16) else DigitRun(digits, 10);
    if n == 0 then None
    else
      var v: int := if hex then DigitsValue(digits[..n], 16) else DigitsValue(digits[..n], 10);
      Some(if negative then -v else v)
  }

  /** A natural number is read back from its decimal text, also when the text
      is followed by anything that starts with neither a letter nor a digit. */
  lemma {:induction false} ParseIntOfNatToString(n: nat, rest: string)
    requires |rest| > 0 ==> DigitValue(rest[0], 36).None?
    ensures ParseInt(NatToString(n) + rest) == Some(n)
  {
    var d := NatToString(n);
    var s := d + rest;
    var k := |d|;
    assert s[0] == d[0];
    assert DigitValue(s[0], 10).Some?;
    assert !IsWhitespace(s[0]);
    assert TrimStart(s) == s;
    assert s[0] != '-' && s[0] != '+';
    assert Unsigned(s) == s;
    if k >= 2 {
      assert s[0] != '0';
    } else if |s| >= 2 {
      assert s[1] == rest[0];
      assert s[1] != 'x' && s[1] != 'X';
    }
    assert !HexPrefixed(s);
    DigitRunOfDigits(d, rest);
    assert s[..k] == d;
  }

  /** The digit run of a digit string followed by a non-digit is that string. */
  lemma {:induction false} DigitRunOfDigits(d: string, rest: string)
    requires AllDigits(d, 10)
    requires |rest| > 0 ==> DigitValue(rest[0], 10).None?
    ensures DigitRun(d + rest, 10) == |d|
  {
    if |d| > 0 {
      assert (d + rest)[1..] == d[1..] + rest;
      DigitRunOfDigits(d[1..], rest);
    } else {
      assert d + rest == rest;
    }
  }
}

=== FILE: radius_search.dfy ===
/** The adaptive-radius facility search shared by the hospital, shelter, food
    and transportation routes: query the places provider, and while the answer
    is empty double the radius, up to ten queries and a 50 km ceiling. */
module RadiusSearch {
  import opened Results
  import opened Numbers
  import opened Strings
  import opened JsValues

  /** The loop gives up after this many queries. */
  const MaxRuns: nat := 10

  /** A doubled radius at or above this many metres ends the loop. */
  const RadiusCeiling: int := 50000

  /** What distinguishes the four routes: the provider categories, the result
      limit, the wording of the messages and the default radius in metres. */
  datatype Route = Route(categories: string, limit: nat, subject: string, defaultRadius: int)

  const Hospital: Route :=
    Route("healthcare.clinic_or_praxis.general,healthcare.hospital", 10, "medical accommodations", 5000)
  const ShelterServices: Route :=
    Route("service.social_facility.shelter", 10, "social shelter services", 5000)
  const FoodServices: Route :=
    Route("service.social_facility.food", 20, "social food services", 5000)
  const Transportation: Route :=
    Route("public_transport", 10, "public transportation", 1000)

  /** One request to the places provider: a circle filter around the centre,
      biased to the centre, with a result limit. */
  datatype Query = Query(categories: string, longitude: string, latitude: string, radius: int, limit: nat)

  /** The provider's answer: a non-ok response with its text, or the parsed
      feature collection, split into its `features` array and its other
      entries (such as `"type": "FeatureCollection"`). */
  datatype Reply = Failed(details: string) | Places(others: map<string, JsValue>, features: seq<JsValue>)

  /** The queried radii, the last answer, and the radius variable once the loop
      has ended (already doubled when the last answer was a success). */
  datatype Trace = Trace(radii: seq<int>, last: Reply, finalRadius: int)

  /** The route's response: 500 with the provider's text, 404 with the
      kilometres reached, or 200 with the feature collection. Body renders the
      JSON that goes with each. */
  datatype Outcome =
    | ServerError(details: string)
    | NotFound(km: int)
    | Ok(others: map<string, JsValue>, features: seq<JsValue>)

  datatype Response = Response(radii: seq<int>, outcome: Outcome)

  function Pow2(i: nat): (p: int)
    ensures p >= 1
  {
    if i == 0 then 1 else 2 * Pow2(i - 1)
  }

  /** An answer with an empty feature list. */
  predicate Empty(r: Reply) {
    r.Places? && |r.features| == 0
  }

  /** The query for one radius. A missing coordinate is written as "null". */
  function QueryFor(route: Route, longitude: Option<string>, latitude: Option<string>, radius: int): (q: Query)
    ensures q.radius == radius && q.categories == route.categories && q.limit == route.limit
    ensures q.longitude == (if longitude.Some? then longitude.value else "null")
    ensures q.latitude == (if latitude.Some? then latitude.value else "null")
  {
    Query(route.categories,
          if longitude.Some? then longitude.value else "null",
          if latitude.Some? then latitude.value else "null",
          radius, route.limit)
  }

  /** One request of a route: the route, its coordinates and the places provider. */
  datatype Search = Search(route: Route, longitude: Option<string>, latitude: Option<string>,
                           places: Query -> Reply)

  /** The provider's answer to the query for one radius. */
  function Ask(s: Search, radius: int): Reply
  {
    s.places(QueryFor(s.route, s.longitude, s.latitude, radius))
  }

  /** Each radius after the first doubles its predecessor and stays below the ceiling.
      The neighbour is bound as its own variable `j` so that both `radii[i]`
      and `radii[j]` can serve as triggers; the proofs about shifted and
      extended chains instantiate it through either index. */
  ghost predicate Doubling(radii: seq<int>) {
    forall i, j :: 0 <= i < j < |radii| && j == i + 1 ==> radii[j] == 2 * radii[i] && radii[j] < RadiusCeiling
  }

  /** Every answer but the last was empty. */
  ghost predicate EmptyBeforeLast(s: Search, radii: seq<int>) {
    forall i :: 0 <= i < |radii| - 1 ==> Empty(Ask(s, radii[i]))
  }

  lemma ExtendSearch(s: Search, radius: int, radii: seq<int>)
    requires |radii| > 0 && radii[0] == 2 * radius && radii[0] < RadiusCeiling
    requires Doubling(radii) && EmptyBeforeLast(s, radii) && Empty(Ask(s, radius))
    ensures Doubling([radius] + radii) && EmptyBeforeLast(s, [radius] + radii)
  {
    var r := [radius] + radii;
    forall i, j | 0 <= i < j < |r| && j == i + 1
      ensures r[j] == 2 * r[i] && r[j] < RadiusCeiling
    {
      if i > 0 {
        assert r[i] == radii[i - 1] && r[j] == radii[j - 1];
      }
    }
    assert forall i :: 0 < i < |r| ==> r[i] == radii[i - 1];
  }

  /** The do-while loop from iteration `run` on, with `radius` as the radius of
      this iteration. The `run >= 10` break at the head of an iteration is taken
      exactly when the previous iteration asked to continue after its tenth query,
      so it is folded into the continuation test. */
  function Loop(s: Search, radius: int, run: nat): (t: Trace)
    requires run < MaxRuns
    ensures 1 <= |t.radii| <= MaxRuns - run
    ensures t.radii[0] == radius
    ensures t.last == Ask(s, t.radii[|t.radii| - 1])
    ensures t.last.Places? ==> t.finalRadius == 2 * t.radii[|t.radii| - 1]
    ensures Empty(t.last) ==> t.finalRadius >= RadiusCeiling || run + |t.radii| == MaxRuns
    decreases MaxRuns - run
  {
    var reply := Ask(s, radius);
    match reply
    case Failed(_) => Trace([radius], reply, radius)
    case Places(_, fs) =>
      var next := radius * 2;
      if |fs| == 0 && next < RadiusCeiling && run + 1 < MaxRuns then
        var t := Loop(s, next, run + 1);
        Trace([radius] + t.radii, t.last, t.finalRadius)
      else
        Trace([radius], reply, next)
  }

  /** The loop doubles the radius from query to query, stays below the ceiling,
      and goes on only after an empty answer. */
  lemma {:induction false} LoopSearchesOutward(s: Search, radius: int, run: nat)
    requires run < MaxRuns
    ensures Doubling(Loop(s, radius, run).radii) && EmptyBeforeLast(s, Loop(s, radius, run).radii)
    decreases MaxRuns - run
  {
    var reply := Ask(s, radius);
    var next := radius * 2;
    if reply.Places? && |reply.features| == 0 && next < RadiusCeiling && run + 1 < MaxRuns {
      LoopSearchesOutward(s, next, run + 1);
      ExtendSearch(s, radius, Loop(s, next, run + 1).radii);
    }
  }

  /** `parseInt(searchParams.get('radius'))`: a missing parameter is `null`,
      which `parseInt` reads as the text "null". None is NaN. */
  function RequestedRadius(param: Option<string>): (r: Option<int>)
    ensures param.None? ==> r.None?
    ensures param.Some? ==> r == ParseInt(param.value)
  {
    MissingRadiusIsNaN();
    ParseInt(if param.Some? then param.value else "null")
  }

  /** The radius the route starts from: `parseInt(...) || default`, where NaN
      and zero are the falsy numbers. */
  function StartRadius(requested: Option<int>, default: int): (r: int)
    ensures r == default || (requested.Some? && r == requested.value)
    ensures r == 0 ==> default == 0
  {
    if requested.Some? && requested.value != 0 then requested.value else default
  }

  /** A missing, zero or non-numeric radius falls back to the route's default. */
  lemma StartRadiusDefaults(default: int, s: string)
    requires ParseInt(s).None? || ParseInt(s) == Some(0)
    ensures StartRadius(RequestedRadius(None), default) == default
    ensures StartRadius(RequestedRadius(Some(s)), default) == default
  {
  }

  /** A positive decimal radius is used as written. */
  lemma DecimalRadiusUsed(default: int, n: nat)
    requires n > 0
    ensures RequestedRadius(Some(NatToString(n))) == Some(n)
    ensures StartRadius(RequestedRadius(Some(NatToString(n))), default) == n
  {
    ParseIntOfNatToString(n, "");
    assert NatToString(n) + "" == NatToString(n);
  }

  /** `parseInt(null)` reads the text "null", which has no digit. */
  lemma MissingRadiusIsNaN()
    ensures ParseInt("null").None?
  {
    var s := "null";
    assert !IsWhitespace(s[0]);
    assert TrimStart(s) == s;
    assert DigitValue(s[0], 10).None?;
    assert DigitRun(s, 10) == 0;
  }

  /** The final answer as the route sends it. `Math.floor(radius / 1000)` is
      integer division here: Dafny's division rounds down for a positive divisor. */
  function Respond(t: Trace): (o: Outcome)
    ensures o.ServerError? <==> t.last.Failed?
    ensures o.Ok? <==> t.last.Places? && |t.last.features| > 0
    ensures o.Ok? ==> o.others == t.last.others && o.features == t.last.features
    ensures o.NotFound? ==> o.km == t.finalRadius / 1000
  {
    match t.last
    case Failed(details) => ServerError(details)
    case Places(others, fs) => if |fs| == 0 then NotFound(t.finalRadius / 1000) else Ok(others, fs)
  }

  /** The HTTP status of an outcome. */
  function Status(o: Outcome): (code: int)
    ensures code in {200, 404, 500}
    ensures code == 200 <==> o.Ok?
  {
    match o
    case ServerError(_) => 500
    case NotFound(_) => 404
    case Ok(_, _) => 200
  }

  /** The parsed collection as the provider sent it: its own entries, with
      the feature array under `features`. */
  function Collection(others: map<string, JsValue>, features: seq<JsValue>): (doc: JsValue)
    ensures doc.Obj? && doc.props.Keys == others.Keys + {"features"}
    ensures doc.props["features"] == Arr(features)
    ensures forall k :: k in others && k != "features" ==> doc.props[k] == others[k]
  {
    Obj(others["features" := Arr(features)])
  }

  /** The JSON body of an outcome, with the route's wording; a 200 sends the
      provider's collection unchanged. */
  function Body(route: Route, o: Outcome): (b: JsValue)
    ensures b.Obj?
    ensures o.ServerError? ==> b.props.Keys == {"error", "details"} && b.props["details"] == Str(o.details)
    ensures o.NotFound? ==> b.props.Keys == {"message"}
    ensures o.Ok? ==> && b.props.Keys == o.others.Keys + {"features"}
                      && b.props["features"] == Arr(o.features)
                      && forall k :: k in o.others && k != "features" ==> b.props[k] == o.others[k]
  {
    match o
    case ServerError(details) =>
      Obj(map["error" := Str("Failed to fetch " + route.subject + " details"), "details" := Str(details)])
    case NotFound(km) =>
      Obj(map["message" := Str("Failed to any " + route.subject + " till " + IntToString(km) + " km")])
    case Ok(others, fs) => Collection(others, fs)
  }

  /** The GET handler of a facility route, given the search (route, coordinates
      and places provider) and the `parseInt` reading of the radius parameter
      (RequestedRadius); `radii` lists the radius of every query sent, in order. */
  function Handle(s: Search, requested: Option<int>): (r: Response)
    ensures 1 <= |r.radii| <= MaxRuns
    ensures r.radii[0] == StartRadius(requested, s.route.defaultRadius)
    ensures var n := |r.radii|; var last := Ask(s, r.radii[n - 1]);
            && (r.outcome.ServerError? <==> last.Failed?)
            && (r.outcome.Ok? <==> last.Places? && |last.features| > 0)
            && (r.outcome.Ok? ==> r.outcome.others == last.others && r.outcome.features == last.features)
            && (r.outcome.NotFound? ==> r.outcome.km == (2 * r.radii[n - 1]) / 1000)
            && (r.outcome.NotFound? ==> 2 * r.radii[n - 1] >= RadiusCeiling || n == MaxRuns)
  {
    var t := Loop(s, StartRadius(requested, s.route.defaultRadius), 0);
    var o := Respond(t);
    Response(t.radii, o)
  }

  /** The route doubles the radius from query to query, stays below the ceiling,
      and sends another query only after an empty answer. */
  lemma HandleSearchesOutward(s: Search, requested: Option<int>)
    ensures Doubling(Handle(s, requested).radii)
    ensures EmptyBeforeLast(s, Handle(s, requested).radii)
  {
    LoopSearchesOutward(s, StartRadius(requested, s.route.defaultRadius), 0);
  }

  /** A provider that never finds anything. */
  function NothingFound(q: Query): Reply {
    Places(map[], [])
  }

  /** The doubling chain in closed form. */
  lemma {:induction false} RadiiFromStart(radii: seq<int>, start: int)
    requires |radii| > 0 && radii[0] == start && Doubling(radii)
    ensures forall i :: 0 <= i < |radii| ==> radii[i] == start * Pow2(i)
    decreases |radii|
  {
    if |radii| > 1 {
      var n := |radii| - 1;
      RadiiFromStart(radii[..n], start);
      assert radii[n - 1] == start * Pow2(n - 1);
      assert start * Pow2(n) == 2 * (start * Pow2(n - 1));
    }
  }

  /** A chain of empty answers from NothingFound. */
  lemma NothingFoundChain(s: Search, radii: seq<int>)
    requires s.places == NothingFound
    ensures EmptyBeforeLast(s, radii)
    ensures |radii| > 0 ==> Empty(Ask(s, radii[|radii| - 1]))
  {
  }

  /** With no usable radius parameter, a 5000 m default and nothing found, a
      route asks for 5000, 10000, 20000 and 40000 m and reports 80 km. */
  lemma DefaultSearchFindsNothing(route: Route, longitude: Option<string>, latitude: Option<string>)
    requires route.defaultRadius == 5000
    ensures var r := Handle(Search(route, longitude, latitude, NothingFound), None);
            && r.radii == [5000, 10000, 20000, 40000]
            && r.outcome == NotFound(80)
  {
    var s := Search(route, longitude, latitude, NothingFound);
    var radii := [5000, 10000, 20000, 40000];
    NothingFoundChain(s, radii);
    HandleFollows(s, None, radii);
  }

  /** With no usable radius parameter, the transportation default of 1000 m and
      nothing found give six queries, 1000 to 32000 m, and a report of 64 km. */
  lemma TransportSearchFindsNothing(longitude: Option<string>, latitude: Option<string>)
    ensures var r := Handle(Search(Transportation, longitude, latitude, NothingFound), None);
            && r.radii == [1000, 2000, 4000, 8000, 16000, 32000]
            && r.outcome == NotFound(64)
  {
    var s := Search(Transportation, longitude, latitude, NothingFound);
    var radii := [1000, 2000, 4000, 8000, 16000, 32000];
    NothingFoundChain(s, radii);
    HandleFollows(s, None, radii);
  }

  /** With a radius parameter of 1 (m) and nothing found the run cap ends the
      loop: ten queries, 1 to 512 m, and a report of 1 km. */
  lemma RunCapEndsTinySearch(route: Route, longitude: Option<string>, latitude: Option<string>)
    ensures var r := Handle(Search(route, longitude, latitude, NothingFound), Some(1));
            && r.radii == [1, 2, 4, 8, 16, 32, 64, 128, 256, 512]
            && r.outcome == NotFound(1)
  {
    var s := Search(route, longitude, latitude, NothingFound);
    var radii := [1, 2, 4, 8, 16, 32, 64, 128, 256, 512];
    assert StartRadius(Some(1), route.defaultRadius) == 1;
    assert Doubling(radii);
    NothingFoundChain(s, radii);
    HandleFollows(s, Some(1), radii);
  }

  /** A start whose double reaches the ceiling is queried once: the do-while
      body runs before the test. */
  lemma WideStartQueriesOnce(s: Search, requested: Option<int>)
    requires 2 * StartRadius(requested, s.route.defaultRadius) >= RadiusCeiling
    ensures |Handle(s, requested).radii| == 1
  {
  }

  /** The loop ends after the query at `radius`: the answer failed, was
      non-empty, or was empty with the doubled radius at the ceiling or the run
      cap reached. */
  predicate Stops(s: Search, radius: int, run: nat) {
    !Empty(Ask(s, radius)) || 2 * radius >= RadiusCeiling || run + 1 >= MaxRuns
  }

  lemma LoopStops(s: Search, radius: int, run: nat)
    requires run < MaxRuns && Stops(s, radius, run)
    ensures Loop(s, radius, run).radii == [radius]
  {
    var reply := Ask(s, radius);
    if reply.Places? && |reply.features| == 0 {
      assert 2 * radius >= RadiusCeiling || run + 1 >= MaxRuns;
    }
  }

  /** An empty answer below the ceiling and the run cap sends the next query. */
  lemma LoopContinues(s: Search, radius: int, run: nat)
    requires run + 1 < MaxRuns && 2 * radius < RadiusCeiling && Empty(Ask(s, radius))
    ensures Loop(s, radius, run).radii == [radius] + Loop(s, 2 * radius, run + 1).radii
  {
    var reply := Ask(s, radius);
    assert reply == Places(reply.others, []);
    var t := Loop(s, 2 * radius, run + 1);
    assert Loop(s, radius, run) == Trace([radius] + t.radii, t.last, t.finalRadius);
  }

  /** The chain after its first radius: still doubling, still empty before the
      last, with the same last radius. */
  lemma SearchTail(s: Search, radii: seq<int>)
    requires |radii| > 1 && Doubling(radii) && EmptyBeforeLast(s, radii)
    ensures Doubling(radii[1..]) && EmptyBeforeLast(s, radii[1..])
    ensures radii[1] == 2 * radii[0] && radii[1] < RadiusCeiling && Empty(Ask(s, radii[0]))
    ensures radii[1..][|radii| - 2] == radii[|radii| - 1]
    ensures radii == [radii[0]] + radii[1..]
  {
    var rest := radii[1..];
    forall i, j | 0 <= i < j < |rest| && j == i + 1
      ensures rest[j] == 2 * rest[i] && rest[j] < RadiusCeiling
    {
      assert rest[i] == radii[i + 1] && rest[j] == radii[j + 1];
    }
    forall i | 0 <= i < |rest| - 1
      ensures Empty(Ask(s, rest[i]))
    {
      assert rest[i] == radii[i + 1];
    }
  }

  /** The loop's queries are determined: a doubling chain below the ceiling,
      empty answers up to its last radius and a stop there is exactly the
      chain the loop follows. */
  lemma {:induction false} LoopFollows(s: Search, radii: seq<int>, run: nat)
    requires 1 <= |radii| && run + |radii| <= MaxRuns
    requires Doubling(radii) && EmptyBeforeLast(s, radii)
    requires Stops(s, radii[|radii| - 1], run + |radii| - 1)
    ensures Loop(s, radii[0], run).radii == radii
    decreases |radii|
  {
    if |radii| == 1 {
      LoopStops(s, radii[0], run);
    } else {
      FollowsStep(s, radii, run);
      LoopFollows(s, radii[1..], run + 1);
    }
  }

  /** One step along the chain: the loop from its first radius is that radius
      followed by the loop from the second, whose chain meets the same
      conditions. */
  lemma FollowsStep(s: Search, radii: seq<int>, run: nat)
    requires 2 <= |radii| && run + |radii| <= MaxRuns
    requires Doubling(radii) && EmptyBeforeLast(s, radii)
    requires Stops(s, radii[|radii| - 1], run + |radii| - 1)
    ensures Doubling(radii[1..]) && EmptyBeforeLast(s, radii[1..])
    ensures Stops(s, radii[1..][|radii| - 2], (run + 1) + |radii[1..]| - 1)
    ensures Loop(s, radii[0], run).radii == [radii[0]] + Loop(s, radii[1], run + 1).radii
    ensures radii == [radii[0]] + radii[1..]
  {
    SearchTail(s, radii);
    LoopContinues(s, radii[0], run);
  }

  /** The route follows the doubling chain from its start radius until the first
      answer that stops the loop. A failed answer yields its text, a non-empty one
      its features. */
  lemma HandleFollows(s: Search, requested: Option<int>, radii: seq<int>)
    requires 1 <= |radii| <= MaxRuns
    requires radii[0] == StartRadius(requested, s.route.defaultRadius)
    requires Doubling(radii) && EmptyBeforeLast(s, radii)
    requires Stops(s, radii[|radii| - 1], |radii| - 1)
    ensures var r := Handle(s, requested); var last := Ask(s, radii[|radii| - 1]);
            && r.radii == radii
            && (last.Failed? ==> r.outcome == ServerError(last.details))
            && (last.Places? && |last.features| > 0 ==> r.outcome == Ok(last.others, last.features))
            && (Empty(last) ==> r.outcome == NotFound((2 * radii[|radii| - 1]) / 1000))
  {
    LoopFollows(s, radii, 0);
  }
}

=== FILE: resilience_zones.dfy ===
/** The reply cleaning of the resilience-zones route
    (`GET /api/fema/resilience-zones`): the language model's answer usually
    comes wrapped in a Markdown code fence tagged `json`, and the route strips
    that wrapping before parsing what is left. The model's answer is an input;
    the parse that follows is not part of this model. */
module ResilienceZones {
  import opened Results
  import opened Strings

  /** The Markdown code-fence marker. */
  const Fence: string := "```"

  /** The language tag of the fence. */
  const Tag: string := "json"

  /** `reply.replace('json', '').replaceAll('```', '').trim()`. */
  function Clean(reply: string): (r: string)
    ensures exists i, j :: 0 <= i <= j <= |RemoveAll(RemoveFirst(reply, Tag), Fence)|
                           && r == RemoveAll(RemoveFirst(reply, Tag), Fence)[i..j]
    ensures |r| > 0 ==> !IsWhitespace(r[0]) && !IsWhitespace(r[|r| - 1])
  {
    Trim(RemoveAll(RemoveFirst(reply, Tag), Fence))
  }

  /** `s` holds no run of three backticks. */
  ghost predicate NoFence(s: string) {
    forall j: nat :: !OccursAt(s, Fence, j)
  }

  /** `n` backticks. */
  function Ticks(n: nat): (r: string)
    ensures |r| == n && forall i :: 0 <= i < n ==> r[i] == '`'
  {
    seq(n, i => '`')
  }

  /** The length of the run of backticks `s` starts with. */
  function TickRun(s: string): (n: nat)
    ensures n <= |s| && s[..n] == Ticks(n)
    ensures n < |s| ==> s[n] != '`'
  {
    if |s| > 0 && s[0] == '`' then 1 + TickRun(s[1..]) else 0
  }

  /** Only the first `json` goes: any later occurrence that does not overlap
      the first one is still there, four characters earlier. */
  lemma LaterTagKept(reply: string, k: nat)
    requires IndexOf(reply, Tag).Some? && k >= IndexOf(reply, Tag).value + |Tag|
    requires OccursAt(reply, Tag, k)
    ensures OccursAt(RemoveFirst(reply, Tag), Tag, k - |Tag|)
  {
    var i := IndexOf(reply, Tag).value;
    var r := RemoveFirst(reply, Tag);
    assert reply == r[..i] + Tag + r[i..];
    assert reply[k..k + |Tag|] == r[k - |Tag|..k];
  }

  /** `replaceAll` at a fence: the fence is dropped and the scan goes on
      after it. */
  lemma RemoveAllAtFence(s: string)
    requires StartsWith(s, Fence)
    ensures RemoveAll(s, Fence) == RemoveAll(s[3..], Fence)
  {
  }

  /** `replaceAll` where no fence starts: the character is kept. */
  lemma RemoveAllPastChar(s: string)
    requires |s| > 0 && !StartsWith(s, Fence)
    ensures RemoveAll(s, Fence) == [s[0]] + RemoveAll(s[1..], Fence)
  {
  }

  /** A run of three or more backticks starts with a fence. */
  lemma TicksAtFence(n: nat, u: string)
    requires n >= 3
    ensures StartsWith(Ticks(n) + u, Fence) && (Ticks(n) + u)[3..] == Ticks(n - 3) + u
  {
    var s := Ticks(n) + u;
    assert s[..3] == [s[0], s[1], s[2]];
  }

  /** A run of one or two backticks ahead of text that does not start with a
      backtick is not a fence. */
  lemma ShortTicks(n: nat, u: string)
    requires 0 < n < 3 && (|u| == 0 || u[0] != '`')
    ensures !StartsWith(Ticks(n) + u, Fence)
    ensures (Ticks(n) + u)[0] == '`' && (Ticks(n) + u)[1..] == Ticks(n - 1) + u
  {
    var s := Ticks(n) + u;
    if |s| >= 3 {
      assert s[n] == u[0];
      assert s[..3][n] != Fence[n];
    }
  }

  /** What is left of `n` once threes are taken away while they fit: `n % 3`. */
  function Leftover(n: nat): (r: nat)
    ensures r < 3
  {
    if n >= 3 then Leftover(n - 3) else n
  }

  /** A run of `n` backticks loses three at a time: `n % 3` of them remain. */
  lemma {:induction false} RemoveTicks(n: nat, u: string)
    requires |u| == 0 || u[0] != '`'
    ensures RemoveAll(Ticks(n) + u, Fence) == Ticks(Leftover(n)) + RemoveAll(u, Fence)
  {
    if n >= 3 {
      RemoveTicks(n - 3, u);
      FenceStep(n, u);
    } else if n > 0 {
      RemoveTicks(n - 1, u);
      TickStep(n, u);
    } else {
      assert Ticks(n) + u == u;
    }
  }

  /** One step of `RemoveTicks` where the run starts with a whole fence. */
  lemma FenceStep(n: nat, u: string)
    requires n >= 3
    requires RemoveAll(Ticks(n - 3) + u, Fence) == Ticks(Leftover(n - 3)) + RemoveAll(u, Fence)
    ensures RemoveAll(Ticks(n) + u, Fence) == Ticks(Leftover(n)) + RemoveAll(u, Fence)
  {
    TicksAtFence(n, u);
    RemoveAllAtFence(Ticks(n) + u);
  }

  /** One step of `RemoveTicks` where the run is too short for a fence. */
  lemma TickStep(n: nat, u: string)
    requires 0 < n < 3 && (|u| == 0 || u[0] != '`')
    requires RemoveAll(Ticks(n - 1) + u, Fence) == Ticks(Leftover(n - 1)) + RemoveAll(u, Fence)
    ensures RemoveAll(Ticks(n) + u, Fence) == Ticks(Leftover(n)) + RemoveAll(u, Fence)
  {
    var t := Ticks(n) + u;
    var rest := RemoveAll(u, Fence);
    assert Leftover(n) == n && Leftover(n - 1) == n - 1;
    calc {
      RemoveAll(t, Fence);
      == { ShortTicks(n, u); RemoveAllPastChar(t); }
      ['`'] + RemoveAll(Ticks(n - 1) + u, Fence);
      ['`'] + (Ticks(n - 1) + rest);
      == { assert ['`'] + Ticks(n - 1) == Ticks(n); }
      Ticks(n) + rest;
    }
  }

  /** A character other than a backtick in front of fence-free text leaves it
      fence-free. */
  lemma CharBeforeText(c: char, w: string)
    requires c != '`' && NoFence(w)
    ensures NoFence([c] + w)
  {
    var t := [c] + w;
    forall j: nat
      ensures !OccursAt(t, Fence, j)
    {
      if j == 0 && 3 <= |t| {
        assert t[0..3][0] == c;
      } else if j > 0 && j + 3 <= |t| {
        assert t[j..j + 3] == w[j - 1..j + 2];
        assert !OccursAt(w, Fence, j - 1);
      }
    }
  }

  /** At most two backticks in front of fence-free text that does not start
      with a backtick leave it fence-free. */
  lemma TicksBeforeText(k: nat, w: string)
    requires k <= 2 && NoFence(w) && (|w| == 0 || w[0] != '`')
    ensures NoFence(Ticks(k) + w)
  {
    var t := Ticks(k) + w;
    forall j: nat
      ensures !OccursAt(t, Fence, j)
    {
      if j + 3 <= |t| {
        if j < k {
          assert t[k] == w[0];
          assert t[j..j + 3][k - j] != Fence[k - j];
        } else {
          assert t[j..j + 3] == w[j - k..j - k + 3];
          assert !OccursAt(w, Fence, j - k);
        }
      }
    }
  }

  /** After `replaceAll('```', '')` no run of three backticks is left, even
      where removing one brings backticks on either side together. */
  lemma {:induction false} RemoveAllLeavesNoFence(s: string)
    ensures NoFence(RemoveAll(s, Fence))
    decreases |s|
  {
    if |s| == 0 {
    } else if s[0] != '`' {
      assert !StartsWith(s, Fence);
      RemoveAllPastChar(s);
      RemoveAllLeavesNoFence(s[1..]);
      CharBeforeText(s[0], RemoveAll(s[1..], Fence));
    } else {
      var n := TickRun(s);
      var u := s[n..];
      assert s == Ticks(n) + u;
      RemoveTicks(n, u);
      RemoveAllLeavesNoFence(u);
      if |u| > 0 {
        assert !StartsWith(u, Fence);
        RemoveAllPastChar(u);
      }
      TicksBeforeText(Leftover(n), RemoveAll(u, Fence));
    }
  }

  /** A piece of fence-free text is fence-free. */
  lemma SliceNoFence(s: string, i: nat, j: nat)
    requires i <= j <= |s| && NoFence(s)
    ensures NoFence(s[i..j])
  {
    forall k: nat
      ensures !OccursAt(s[i..j], Fence, k)
    {
      if k + 3 <= j - i {
        var t := s[i..j];
        assert t[k..k + 3] == [t[k], t[k + 1], t[k + 2]];
        assert s[i + k..i + k + 3] == [s[i + k], s[i + k + 1], s[i + k + 2]];
        assert !OccursAt(s, Fence, i + k);
      }
    }
  }

  /** No run of three backticks survives cleaning. */
  lemma CleanLeavesNoFence(reply: string)
    ensures NoFence(Clean(reply))
  {
    var x := RemoveAll(RemoveFirst(reply, Tag), Fence);
    RemoveAllLeavesNoFence(RemoveFirst(reply, Tag));
    var i, j :| 0 <= i <= j <= |x| && Clean(reply) == x[i..j];
    SliceNoFence(x, i, j);
  }

  /** The usual wrapping: the tag follows the opening fence, so it is the
      first `json` in the reply. */
  lemma FencedTagFirst(body: string)
    ensures var reply := Fence + Tag + "\n" + body + "\n" + Fence;
            IndexOf(reply, Tag) == Some(3)
  {
    var reply := Fence + Tag + "\n" + body + "\n" + Fence;
    assert OccursAt(reply, Tag, 3);
    forall j: nat | j < 3
      ensures !OccursAt(reply, Tag, j)
    {
      if j + 4 <= |reply| {
        assert reply[j..j + 4][0] == '`';
      }
    }
  }

  /** In a newline, fence-free text and a newline, followed by anything, no
      fence starts before that anything. */
  lemma NoFenceBetweenNewlines(body: string, c: string)
    requires NoFence(body)
    ensures var a := "\n" + body + "\n";
            forall j: nat :: j < |a| ==> !OccursAt(a + c, Fence, j)
  {
    var a := "\n" + body + "\n";
    var s := a + c;
    forall j: nat | j < |a|
      ensures !OccursAt(s, Fence, j)
    {
      if j + 3 <= |s| {
        if j == 0 || j == |a| - 1 {
          assert s[j..j + 3][0] == '\n';
        } else if j + 2 <= |body| {
          assert s[j..j + 3] == body[j - 1..j + 2];
          assert !OccursAt(body, Fence, j - 1);
        } else {
          assert s[|a| - 1] == '\n';
          assert s[j..j + 3][|a| - 1 - j] != Fence[|a| - 1 - j];
        }
      }
    }
  }

  /** A newline in front of fence-free text and a newline and a closing fence
      after it: only the closing fence is removed. */
  lemma ClosingFenceRemoved(body: string)
    requires NoFence(body)
    ensures RemoveAll("\n" + body + "\n" + Fence, Fence) == "\n" + body + "\n"
  {
    var a := "\n" + body + "\n";
    NoFenceBetweenNewlines(body, Fence);
    RemoveAllKeepsPrefix(a, Fence, Fence);
    RemoveAllAtFence(Fence);
    assert Fence[3..] == "";
    assert a + "" == a;
  }

  /** A reply wrapped as "```json\n" + body + "\n```" cleans to the body
      trimmed, whatever `json` the body itself contains, as long as the body
      holds no fence of its own. */
  lemma FencedReplyCleansToBody(body: string)
    requires NoFence(body)
    ensures Clean(Fence + Tag + "\n" + body + "\n" + Fence) == Trim(body)
  {
    var reply := Fence + Tag + "\n" + body + "\n" + Fence;
    FencedTagFirst(body);
    var tail := "\n" + body + "\n" + Fence;
    assert reply == Fence + Tag + tail;
    var r := RemoveFirst(reply, Tag);
    assert reply == r[..3] + Tag + r[3..];
    assert r == Fence + tail;
    assert StartsWith(r, Fence);
    assert r[3..] == tail;
    ClosingFenceRemoved(body);
    assert "\n" + body + "\n" == "\n" + body + "\n";
    assert AllWhitespace("\n");
    TrimIgnoresPadding("\n", body, "\n");
  }
}

=== FILE: results.dfy ===
/** Optional values and the outcome of a JavaScript evaluation that may throw. */
module Results {

  /** A value that may be absent. */
  datatype Option<+T> = None | Some(value: T)

  /** The two exception kinds the modelled code can raise on its own. */
  datatype JsError = TypeError | RangeError

  /** The completion of an evaluation: it returns a value normally or throws.
      Usable with `:-`, so a throw propagates the way an uncaught exception does. */
  datatype Completion<+T> = Normal(value: T) | Abrupt(error: JsError) {

    predicate IsFailure() {
      Abrupt?
    }

    function PropagateFailure<U>(): Completion<U>
      requires Abrupt?
    {
      Abrupt(error)
    }

    function Extract(): T
      requires Normal?
    {
      value
    }
  }
}

=== FILE: seqs.dfy ===
/** `Array.prototype.filter` and the sub-list relation it establishes. */
module Seqs {
  import opened Results

  /** `r` is `xs` with some elements left out, the rest in their original order. */
  predicate Subsequence<T(==)>(r: seq<T>, xs: seq<T>)
    decreases |xs|
  {
    if |r| == 0 then true
    else if |xs| == 0 then false
    else (r[0] == xs[0] && Subsequence(r[1..], xs[1..])) || Subsequence(r, xs[1..])
  }

  /** `xs.filter(p)`: the elements that pass `p`. */
  function Filter<T>(xs: seq<T>, p: T -> bool): (r: seq<T>)
    ensures |r| <= |xs|
    ensures forall i :: 0 <= i < |r| ==> p(r[i])
  {
    if |xs| == 0 then []
    else (if p(xs[0]) then [xs[0]] else []) + Filter(xs[1..], p)
  }

  /** `xs.filter(test)` with a callback that can throw: the first throw ends
      the filter, otherwise the elements whose test is true remain. */
  function FilterOrThrow<T>(xs: seq<T>, test: T -> Completion<bool>): (r: Completion<seq<T>>)
    ensures r.Abrupt? <==> exists i :: 0 <= i < |xs| && test(xs[i]).Abrupt?
    ensures r.Normal? ==> r.value == Filter(xs, (x: T) => test(x) == Normal(true))
  {
    if |xs| == 0 then Normal([])
    else
      var keep :- test(xs[0]);
      var rest :- FilterOrThrow(xs[1..], test);
      assert forall i :: 1 <= i < |xs| ==> xs[i] == xs[1..][i - 1];
      Normal((if keep then [xs[0]] else []) + rest)
  }

  /** A callback that throws on no element filters as the predicate it
      computes. */
  lemma {:induction false} FilterOrThrowAs<T>(xs: seq<T>, test: T -> Completion<bool>, p: T -> bool)
    requires forall i :: 0 <= i < |xs| ==> test(xs[i]) == Normal(p(xs[i]))
    ensures FilterOrThrow(xs, test) == Normal(Filter(xs, p))
  {
    if |xs| > 0 {
      FilterOrThrowAs(xs[1..], test, p);
    }
  }

  /** Every element that passes stays, as often as in `xs`; no other does. */
  lemma {:induction false} FilterCounts<T>(xs: seq<T>, p: T -> bool)
    ensures forall x :: p(x) ==> multiset(Filter(xs, p))[x] == multiset(xs)[x]
    ensures forall x :: !p(x) ==> multiset(Filter(xs, p))[x] == 0
  {
    if |xs| > 0 {
      FilterCounts(xs[1..], p);
      assert xs == [xs[0]] + xs[1..];
    }
  }

  /** An element of the filtered list is an element of the input that passes. */
  lemma {:induction false} FilterMember<T>(xs: seq<T>, p: T -> bool, i: int)
    requires 0 <= i < |Filter(xs, p)|
    ensures p(Filter(xs, p)[i])
    ensures exists k :: 0 <= k < |xs| && xs[k] == Filter(xs, p)[i]
  {
    if p(xs[0]) && i == 0 {
      assert xs[0] == Filter(xs, p)[i];
    } else {
      var j := if p(xs[0]) then i - 1 else i;
      assert Filter(xs, p)[i] == Filter(xs[1..], p)[j];
      FilterMember(xs[1..], p, j);
      var k :| 0 <= k < |xs[1..]| && xs[1..][k] == Filter(xs[1..], p)[j];
      assert xs[k + 1] == Filter(xs, p)[i];
    }
  }

  /** An element that passes is in the filtered list. */
  lemma {:induction false} FilterKeeps<T>(xs: seq<T>, p: T -> bool, k: int)
    requires 0 <= k < |xs| && p(xs[k])
    ensures xs[k] in Filter(xs, p)
  {
    if k > 0 {
      FilterKeeps(xs[1..], p, k - 1);
    }
  }

  /** The filtered list keeps the original order. */
  lemma {:induction false} FilterIsSubsequence<T>(xs: seq<T>, p: T -> bool)
    ensures Subsequence(Filter(xs, p), xs)
  {
    if |xs| > 0 {
      FilterIsSubsequence(xs[1..], p);
      var r := Filter(xs, p);
      if p(xs[0]) {
        assert r[0] == xs[0] && r[1..] == Filter(xs[1..], p);
      } else {
        assert r == Filter(xs[1..], p);
      }
    }
  }

  /** When every element passes, filtering returns the list itself. */
  lemma {:induction false} FilterAll<T>(xs: seq<T>, p: T -> bool)
    requires forall i :: 0 <= i < |xs| ==> p(xs[i])
    ensures Filter(xs, p) == xs
  {
    if |xs| > 0 {
      FilterAll(xs[1..], p);
    }
  }

  /** When no element passes, filtering returns the empty list. */
  lemma {:induction false} FilterNone<T>(xs: seq<T>, p: T -> bool)
    requires forall i :: 0 <= i < |xs| ==> !p(xs[i])
    ensures Filter(xs, p) == []
  {
    if |xs| > 0 {
      FilterNone(xs[1..], p);
    }
  }

  /** `xs.slice(0, n)`. */
  function Take<T>(xs: seq<T>, n: nat): (r: seq<T>)
    ensures |r| == if n < |xs| then n else |xs|
    ensures forall i :: 0 <= i < |r| ==> r[i] == xs[i]
  {
    if n < |xs| then xs[..n] else xs
  }
}

=== FILE: sorting.dfy ===
/** `Array.prototype.sort` with a comparator, as a stable insertion sort. A
    comparator result is None for NaN, which the sort reads as +0 ("equal"). */
module Sorting {
  import opened Results

  /** The comparator asks for its second argument to come first. */
  predicate Positive(c: Option<int>) {
    c.Some? && c.value > 0
  }

  /** Inserts `x`, the next element of the input, into the sorted prefix `ys`:
      it moves left past every element that the comparator puts after it. */
  function Insert<T>(ys: seq<T>, x: T, cmp: (T, T) -> Option<int>): (r: seq<T>)
    ensures |r| == |ys| + 1
    ensures multiset(r) == multiset(ys) + multiset{x}
  {
    if |ys| == 0 then [x]
    else
      var last := ys[|ys| - 1];
      assert ys == ys[..|ys| - 1] + [last];
      if Positive(cmp(last, x)) then Insert(ys[..|ys| - 1], x, cmp) + [last]
      else ys + [x]
  }

  /** `xs.sort(cmp)` on a copy of `xs`. */
  function SortBy<T>(xs: seq<T>, cmp: (T, T) -> Option<int>): (r: seq<T>)
    ensures |r| == |xs|
    ensures multiset(r) == multiset(xs)
  {
    if |xs| == 0 then []
    else
      assert xs == xs[..|xs| - 1] + [xs[|xs| - 1]];
      Insert(SortBy(xs[..|xs| - 1], cmp), xs[|xs| - 1], cmp)
  }

  /** A comparator that never answers "positive" on the elements of `xs`
      (for instance one that always yields NaN) leaves `xs` as it is. */
  lemma {:induction false} SortWithoutPositiveKeepsOrder<T>(xs: seq<T>, cmp: (T, T) -> Option<int>)
    requires forall i, j :: 0 <= i < |xs| && 0 <= j < |xs| ==> !Positive(cmp(xs[i], xs[j]))
    ensures SortBy(xs, cmp) == xs
  {
    if |xs| > 0 {
      var p := xs[..|xs| - 1];
      SortWithoutPositiveKeepsOrder(p, cmp);
      if |p| > 0 {
        assert !Positive(cmp(xs[|p| - 1], xs[|xs| - 1]));
      }
      assert p + [xs[|xs| - 1]] == xs;
    }
  }

  /** The comparator `(a, b) => key(b) - key(a)`: latest key first. */
  function LatestFirst<T>(key: T -> Option<int>): (T, T) -> Option<int>
  {
    (a: T, b: T) => if key(a).Some? && key(b).Some? then Some(key(b).value - key(a).value) else None
  }

  predicate AllKeyed<T>(xs: seq<T>, key: T -> Option<int>) {
    forall i :: 0 <= i < |xs| ==> key(xs[i]).Some?
  }

  /** Keys never increase along `ys`. */
  predicate Descending<T>(ys: seq<T>, key: T -> Option<int>) {
    && AllKeyed(ys, key)
    && forall i, j :: 0 <= i < j < |ys| ==> key(ys[j]).value <= key(ys[i]).value
  }

  /** `a` has a valid key, and it is no later than `b`'s valid key. */
  predicate NoLater<T>(a: T, b: T, key: T -> Option<int>) {
    key(a).Some? && key(b).Some? && key(a).value <= key(b).value
  }

  /** In a descending list, whatever is left out of a prefix is no later than
      anything in that prefix. */
  lemma DescendingPrefixIsLatest<T>(xs: seq<T>, m: nat, key: T -> Option<int>)
    requires m <= |xs| && Descending(xs, key)
    ensures forall x :: x in multiset(xs) - multiset(xs[..m]) ==>
              forall i :: 0 <= i < m ==> NoLater(x, xs[i], key)
  {
    assert xs == xs[..m] + xs[m..];
    assert multiset(xs) == multiset(xs[..m]) + multiset(xs[m..]);
    forall x | x in multiset(xs) - multiset(xs[..m])
      ensures forall i :: 0 <= i < m ==> NoLater(x, xs[i], key)
    {
      assert x in multiset(xs[m..]);
      var j :| 0 <= j < |xs[m..]| && xs[m..][j] == x;
      assert x == xs[m + j];
    }
  }

  /** `xs[k]` has the largest key, and every element before it a smaller one. */
  predicate IsFirstLatest<T>(xs: seq<T>, key: T -> Option<int>, k: int) {
    && AllKeyed(xs, key)
    && 0 <= k < |xs|
    && (forall j :: 0 <= j < |xs| ==> key(xs[j]).value <= key(xs[k]).value)
    && (forall j :: 0 <= j < k ==> key(xs[j]).value < key(xs[k]).value)
  }

  lemma LatestFirstPositive<T>(key: T -> Option<int>, a: T, b: T)
    requires key(a).Some? && key(b).Some?
    ensures Positive(LatestFirst(key)(a, b)) <==> key(b).value > key(a).value
  {
  }

  /** The comparator yields NaN exactly when a date is Invalid; otherwise it
      is positive when `b` is later, zero when both are equal and negative
      when `a` is later. */
  lemma LatestFirstOrders<T>(key: T -> Option<int>, a: T, b: T)
    ensures LatestFirst(key)(a, b).None? <==> key(a).None? || key(b).None?
    ensures LatestFirst(key)(a, b).Some? ==>
              && (Positive(LatestFirst(key)(a, b)) <==> key(b).value > key(a).value)
              && (LatestFirst(key)(a, b).value == 0 <==> key(a).value == key(b).value)
  {
  }

  /** Every element of an insertion result is `x` or came from `ys`. */
  lemma {:induction false} InsertElements<T>(ys: seq<T>, x: T, cmp: (T, T) -> Option<int>, i: int)
    requires 0 <= i < |Insert(ys, x, cmp)|
    ensures Insert(ys, x, cmp)[i] == x || Insert(ys, x, cmp)[i] in ys
  {
    var r := Insert(ys, x, cmp);
    assert r[i] in multiset(r);
  }

  lemma AppendDescending<T>(a: seq<T>, l: T, key: T -> Option<int>)
    requires Descending(a, key) && key(l).Some?
    requires forall i :: 0 <= i < |a| ==> key(l).value <= key(a[i]).value
    ensures Descending(a + [l], key)
  {
  }

  lemma {:induction false} InsertDescending<T>(ys: seq<T>, x: T, key: T -> Option<int>)
    requires Descending(ys, key) && key(x).Some?
    ensures Descending(Insert(ys, x, LatestFirst(key)), key)
  {
    var cmp := LatestFirst(key);
    if |ys| > 0 {
      var init := ys[..|ys| - 1];
      var last := ys[|ys| - 1];
      LatestFirstPositive(key, last, x);
      if key(x).value > key(last).value {
        InsertDescending(init, x, key);
        var r' := Insert(init, x, cmp);
        assert Insert(ys, x, cmp) == r' + [last];
        forall i | 0 <= i < |r'|
          ensures key(last).value <= key(r'[i]).value
        {
          InsertElements(init, x, cmp, i);
          if r'[i] != x {
            var j :| 0 <= j < |init| && init[j] == r'[i];
            assert ys[j] == init[j];
          }
        }
        AppendDescending(r', last, key);
      } else {
        assert Insert(ys, x, cmp) == ys + [x];
        AppendDescending(ys, x, key);
      }
    }
  }

  /** Inserting into a descending list puts `x` in front exactly when its key is
      larger than the current head's. */
  lemma {:induction false} InsertHead<T>(ys: seq<T>, x: T, key: T -> Option<int>)
    requires Descending(ys, key) && key(x).Some? && |ys| > 0
    ensures Insert(ys, x, LatestFirst(key))[0]
            == if key(x).value > key(ys[0]).value then x else ys[0]
  {
    var cmp := LatestFirst(key);
    var init := ys[..|ys| - 1];
    var last := ys[|ys| - 1];
    LatestFirstPositive(key, last, x);
    if key(x).value > key(last).value {
      assert Insert(ys, x, cmp) == Insert(init, x, cmp) + [last];
      if |init| == 0 {
        assert Insert(init, x, cmp) == [x];
      } else {
        InsertHead(init, x, key);
        assert init[0] == ys[0];
      }
    } else {
      assert Insert(ys, x, cmp) == ys + [x];
    }
  }

  /** Sorting by `LatestFirst` puts the keys in descending order. */
  lemma {:induction false} SortDescending<T>(xs: seq<T>, key: T -> Option<int>)
    requires AllKeyed(xs, key)
    ensures Descending(SortBy(xs, LatestFirst(key)), key)
  {
    if |xs| > 0 {
      var p := xs[..|xs| - 1];
      SortDescending(p, key);
      InsertDescending(SortBy(p, LatestFirst(key)), xs[|xs| - 1], key);
    }
  }

  lemma FirstLatestKept<T>(p: seq<T>, x: T, key: T -> Option<int>, k: int)
    requires IsFirstLatest(p, key, k) && key(x).Some? && key(x).value <= key(p[k]).value
    ensures IsFirstLatest(p + [x], key, k)
  {
    var xs := p + [x];
    assert forall j :: 0 <= j < |p| ==> xs[j] == p[j];
  }

  lemma FirstLatestReplaced<T>(p: seq<T>, x: T, key: T -> Option<int>, k: int)
    requires IsFirstLatest(p, key, k) && key(x).Some? && key(x).value > key(p[k]).value
    ensures IsFirstLatest(p + [x], key, |p|)
  {
    var xs := p + [x];
    assert forall j :: 0 <= j < |p| ==> xs[j] == p[j];
  }

  /** The head of the sorted list is the first element with the latest key:
      among equal keys the stable sort keeps the earliest in front. */
  lemma {:induction false} SortHeadIsFirstLatest<T>(xs: seq<T>, key: T -> Option<int>)
    requires AllKeyed(xs, key) && |xs| > 0
    ensures exists k :: IsFirstLatest(xs, key, k) && SortBy(xs, LatestFirst(key))[0] == xs[k]
  {
    var n := |xs|;
    if n == 1 {
      assert IsFirstLatest(xs, key, 0);
      assert SortBy(xs, LatestFirst(key)) == Insert([], xs[0], LatestFirst(key));
    } else {
      var p := xs[..n - 1];
      var x := xs[n - 1];
      assert xs == p + [x];
      SortHeadIsFirstLatest(p, key);
      var sp := SortBy(p, LatestFirst(key));
      var k' :| IsFirstLatest(p, key, k') && sp[0] == p[k'];
      SortDescending(p, key);
      InsertHead(sp, x, key);
      assert SortBy(xs, LatestFirst(key)) == Insert(sp, x, LatestFirst(key));
      if key(x).value > key(p[k']).value {
        FirstLatestReplaced(p, x, key, k');
        assert SortBy(xs, LatestFirst(key))[0] == xs[n - 1];
      } else {
        FirstLatestKept(p, x, key, k');
        assert SortBy(xs, LatestFirst(key))[0] == xs[k'];
      }
    }
  }
}

=== FILE: strings.dfy ===
/** The string operations of the JavaScript standard library the modelled code
    uses: `trim`, `includes`, `replace` and `replaceAll` with a string pattern,
    `join` and an ASCII `toLowerCase`. */
module Strings {
  import opened Results

  /** The WhiteSpace and LineTerminator code points of ECMAScript (sections 12.2
      and 12.3 of ECMA-262): the characters `trim` removes and `parseInt` skips. */
  predicate IsWhitespace(c: char) {
    || c == '\t' || c == '\U{000B}' || c == '\U{000C}' || c == ' '
    || c == '\U{00A0}' || c == '\U{FEFF}'
    || c == '\n' || c == '\r' || c == '\U{2028}' || c == '\U{2029}'
    || c == '\U{1680}' || ('\U{2000}' <= c <= '\U{200A}')
    || c == '\U{202F}' || c == '\U{205F}' || c == '\U{3000}'
  }

  predicate AllWhitespace(s: string) {
    forall i :: 0 <= i < |s| ==> IsWhitespace(s[i])
  }

  /** The index of the first character at or after `k` that is not
      whitespace, or `|s|` when there is none. */
  function SkipWhitespace(s: string, k: nat): (e: nat)
    requires k <= |s|
    ensures k <= e <= |s|
    ensures forall m :: k <= m < e ==> IsWhitespace(s[m])
    ensures e < |s| ==> !IsWhitespace(s[e])
    decreases |s| - k
  {
    if k < |s| && IsWhitespace(s[k]) then SkipWhitespace(s, k + 1) else k
  }

  /** The index where the whitespace run that ends at `k` starts. */
  function BackWhitespace(s: string, k: nat): (b: nat)
    requires k <= |s|
    ensures b <= k
    ensures forall m :: b <= m < k ==> IsWhitespace(s[m])
    ensures b > 0 ==> !IsWhitespace(s[b - 1])
  {
    if k > 0 && IsWhitespace(s[k - 1]) then BackWhitespace(s, k - 1) else k
  }

  /** Any index past a whitespace run and onto a non-whitespace character (or
      the end) is the one `SkipWhitespace` finds. */
  lemma {:induction false} SkipWhitespaceIs(s: string, k: nat, e: nat)
    requires k <= e <= |s|
    requires forall m :: k <= m < e ==> IsWhitespace(s[m])
    requires e < |s| ==> !IsWhitespace(s[e])
    ensures SkipWhitespace(s, k) == e
    decreases e - k
  {
    if k < e {
      SkipWhitespaceIs(s, k + 1, e);
    }
  }

  /** Any index where a whitespace run up to `k` starts after a
      non-whitespace character (or at 0) is the one `BackWhitespace` finds. */
  lemma {:induction false} BackWhitespaceIs(s: string, k: nat, b: nat)
    requires b <= k <= |s|
    requires forall m :: b <= m < k ==> IsWhitespace(s[m])
    requires b > 0 ==> !IsWhitespace(s[b - 1])
    ensures BackWhitespace(s, k) == b
    decreases k - b
  {
    if b < k {
      BackWhitespaceIs(s, k - 1, b);
    }
  }

  /** Drops leading whitespace. */
  function TrimStart(s: string): (r: string)
    ensures |r| <= |s| && r == s[|s| - |r|..]
    ensures AllWhitespace(s[..|s| - |r|])
    ensures |r| > 0 ==> !IsWhitespace(r[0])
  {
    s[SkipWhitespace(s, 0)..]
  }

  /** Drops trailing whitespace. */
  function TrimEnd(s: string): (r: string)
    ensures |r| <= |s| && r == s[..|r|]
    ensures AllWhitespace(s[|r|..])
    ensures |r| > 0 ==> !IsWhitespace(r[|r| - 1])
  {
    s[..BackWhitespace(s, |s|)]
  }

  /** `String.prototype.trim`: the middle part of `s` left once the whitespace
      runs at both ends are removed. */
  function Trim(s: string): (r: string)
    ensures exists i, j :: 0 <= i <= j <= |s| && r == s[i..j]
                         && AllWhitespace(s[..i]) && AllWhitespace(s[j..])
    ensures |r| > 0 ==> !IsWhitespace(r[0]) && !IsWhitespace(r[|r| - 1])
  {
    var i := SkipWhitespace(s, 0);
    var k := BackWhitespace(s[i..], |s| - i);
    SuffixWhitespace(s, i, k);
    TrimEnd(TrimStart(s))
  }

  /** Whitespace at the end of `s[i..]` from `k` on is whitespace at the end
      of `s` from `i + k` on. */
  lemma SuffixWhitespace(s: string, i: nat, k: nat)
    requires i + k <= |s|
    requires forall m :: k <= m < |s| - i ==> IsWhitespace(s[i..][m])
    ensures s[i..][..k] == s[i..i + k] && AllWhitespace(s[i + k..])
  {
    assert s[i + k..] == s[i..][k..];
  }

  lemma TrimStartSkips(a: string, x: string)
    requires AllWhitespace(a)
    ensures TrimStart(a + x) == TrimStart(x)
  {
    var e := SkipWhitespace(x, 0);
    SkipWhitespaceIs(a + x, 0, |a| + e);
    assert (a + x)[|a| + e..] == x[e..];
  }

  lemma TrimStartAppend(b: string, c: string)
    requires TrimStart(b) != ""
    ensures TrimStart(b + c) == TrimStart(b) + c
  {
    var e := SkipWhitespace(b, 0);
    SkipWhitespaceIs(b + c, 0, e);
    assert (b + c)[e..] == b[e..] + c;
  }

  lemma TrimEndSkips(x: string, c: string)
    requires AllWhitespace(c)
    ensures TrimEnd(x + c) == TrimEnd(x)
  {
    var b := BackWhitespace(x, |x|);
    BackWhitespaceIs(x + c, |x + c|, b);
    assert (x + c)[..b] == x[..b];
  }

  lemma TrimStartOfWhitespace(c: string)
    requires AllWhitespace(c)
    ensures TrimStart(c) == ""
  {
    SkipWhitespaceIs(c, 0, |c|);
  }

  /** Whitespace around a text never changes what `trim` returns. */
  lemma TrimIgnoresPadding(a: string, b: string, c: string)
    requires AllWhitespace(a) && AllWhitespace(c)
    ensures Trim(a + b + c) == Trim(b)
  {
    assert a + b + c == a + (b + c);
    TrimStartSkips(a, b + c);
    var tb := TrimStart(b);
    if tb != "" {
      TrimStartAppend(b, c);
      TrimEndSkips(tb, c);
    } else {
      assert AllWhitespace(b[..|b|]);
      assert b[..|b|] == b;
      TrimStartSkips(b, c);
      TrimStartOfWhitespace(c);
    }
  }

  /** `p` occurs in `s` starting at index `i`. */
  predicate OccursAt(s: string, p: string, i: nat) {
    i + |p| <= |s| && s[i..i + |p|] == p
  }

  predicate StartsWith(s: string, p: string) {
    |p| <= |s| && s[..|p|] == p
  }

  function IndexFrom(s: string, p: string, k: nat): (r: Option<nat>)
    requires forall j: nat :: j < k ==> !OccursAt(s, p, j)
    ensures r.Some? ==> k <= r.value && OccursAt(s, p, r.value)
                        && forall j: nat :: j < r.value ==> !OccursAt(s, p, j)
    ensures r.None? ==> forall j: nat :: !OccursAt(s, p, j)
    decreases |s| - k
  {
    if k + |p| > |s| then None
    else if s[k..k + |p|] == p then Some(k)
    else IndexFrom(s, p, k + 1)
  }

  /** `s.indexOf(p)`: the first index where `p` occurs, or None when it never does. */
  function IndexOf(s: string, p: string): (r: Option<nat>)
    ensures r.Some? ==> OccursAt(s, p, r.value)
                        && forall j: nat :: j < r.value ==> !OccursAt(s, p, j)
    ensures r.None? ==> forall j: nat :: !OccursAt(s, p, j)
  {
    IndexFrom(s, p, 0)
  }

  /** `s.includes(p)`. */
  predicate Contains(s: string, p: string) {
    IndexOf(s, p).Some?
  }

  /** `s.includes(p)` holds exactly when some index carries an occurrence. */
  lemma ContainsMeansOccurs(s: string, p: string)
    ensures Contains(s, p) <==> exists i: nat :: OccursAt(s, p, i)
  {
    if Contains(s, p) {
      assert OccursAt(s, p, IndexOf(s, p).value);
    }
  }

  /** `s.replace(p, "")` with a string pattern: the first occurrence of `p` is cut
      out and the rest of `s` is kept. */
  function RemoveFirst(s: string, p: string): (r: string)
    ensures IndexOf(s, p).None? ==> r == s
    ensures IndexOf(s, p).Some? ==>
              var i := IndexOf(s, p).value;
              i <= |r| && s == r[..i] + p + r[i..]
  {
    match IndexOf(s, p)
    case None => s
    case Some(i) =>
      var r := s[..i] + s[i + |p|..];
      assert s == r[..i] + p + r[i..];
      r
  }

  /** `s.replaceAll(p, "")` with a string pattern: every occurrence of `p` found by
      a left-to-right scan, non-overlapping, is cut out. An empty pattern matches
      only empty text, so it removes nothing. */
  function RemoveAll(s: string, p: string): (r: string)
    ensures |r| <= |s|
    decreases |s|
  {
    if |p| == 0 || |s| == 0 then s
    else if StartsWith(s, p) then
      assert s == s[..|p|] + s[|p|..];
      RemoveAll(s[|p|..], p)
    else
      assert s == [s[0]] + s[1..];
      [s[0]] + RemoveAll(s[1..], p)
  }

  /** Removal only ever drops characters. */
  lemma {:induction false} RemoveAllDropsOnly(s: string, p: string)
    ensures multiset(RemoveAll(s, p)) <= multiset(s)
    decreases |s|
  {
    if |p| > 0 && |s| > 0 {
      if StartsWith(s, p) {
        RemoveAllDropsOnly(s[|p|..], p);
        assert s == s[..|p|] + s[|p|..];
      } else {
        RemoveAllDropsOnly(s[1..], p);
        assert s == [s[0]] + s[1..];
      }
    }
  }

  /** An occurrence in the tail of `s` is an occurrence in `s` one place later. */
  lemma OccursInTail(s: string, p: string, j: nat)
    requires |s| > 0
    ensures OccursAt(s[1..], p, j) <==> OccursAt(s, p, j + 1)
  {
    if j + |p| <= |s[1..]| {
      assert s[1..][j..j + |p|] == s[j + 1..j + 1 + |p|];
    }
  }

  /** Removing every occurrence changes nothing when there is none. */
  lemma {:induction false} RemoveAllWithoutOccurrence(s: string, p: string)
    requires forall j: nat :: !OccursAt(s, p, j)
    ensures RemoveAll(s, p) == s
    decreases |s|
  {
    if |p| > 0 && |s| > 0 {
      assert !OccursAt(s, p, 0);
      assert !StartsWith(s, p);
      forall j: nat
        ensures !OccursAt(s[1..], p, j)
      {
        OccursInTail(s, p, j);
      }
      RemoveAllWithoutOccurrence(s[1..], p);
    }
  }

  /** A prefix in which no occurrence starts is copied through unchanged. */
  lemma {:induction false} RemoveAllKeepsPrefix(a: string, c: string, p: string)
    requires |p| > 0
    requires forall j: nat :: j < |a| ==> !OccursAt(a + c, p, j)
    ensures RemoveAll(a + c, p) == a + RemoveAll(c, p)
    decreases |a|
  {
    if |a| > 0 {
      var s := a + c;
      assert !OccursAt(s, p, 0);
      assert !StartsWith(s, p);
      assert s[1..] == a[1..] + c;
      forall j: nat | j < |a[1..]|
        ensures !OccursAt(a[1..] + c, p, j)
      {
        OccursInTail(s, p, j);
      }
      RemoveAllKeepsPrefix(a[1..], c, p);
      assert a == [a[0]] + a[1..];
    } else {
      assert a + c == c;
    }
  }

  /** `parts.join(sep)`. */
  function Join(parts: seq<string>, sep: string): (r: string)
    ensures |parts| == 0 ==> r == ""
    ensures |parts| == 1 ==> r == parts[0]
  {
    if |parts| == 0 then ""
    else if |parts| == 1 then parts[0]
    else parts[0] + sep + Join(parts[1..], sep)
  }

  /** Lower-case of one character for the ASCII letters; other characters are
      returned unchanged. */
  function LowerChar(c: char): (d: char)
    ensures 'A' <= c <= 'Z' ==> 'a' <= d <= 'z' && d as int - c as int == 32
    ensures !('A' <= c <= 'Z') ==> d == c
  {
    if 'A' <= c <= 'Z' then (c as int + 32) as char else c
  }

  /** `s.toLowerCase()` restricted to ASCII letters. */
  function ToLower(s: string): (r: string)
    ensures |r| == |s|
    ensures forall i :: 0 <= i < |s| ==> r[i] == LowerChar(s[i])
  {
    seq(|s|, i requires 0 <= i < |s| => LowerChar(s[i]))
  }

  /** Lower-casing twice is lower-casing once. */
  lemma ToLowerIdempotent(s: string)
    ensures ToLower(ToLower(s)) == ToLower(s)
  {
    assert forall i :: 0 <= i < |s| ==> ToLower(ToLower(s))[i] == ToLower(s)[i];
  }
}
